=== FILE: README.md ===
# SaberLib list serializer, modelled in Dafny

`DmitriiSaburovSerializer` copies and (de)serializes a doubly linked list.
Each node has `Previous`, `Next`, a `Random` reference to any node of the
list (or to nothing), and a `Data` string that may be null. It offers three
operations:

- **DeepCopy** walks the list once. It uses a dictionary from original node to
  copy, so a copy made early for a `Next` or `Random` target is reused when
  the walk reaches that node.
- **Serialize** turns the list into wire records `(Id, RandomId, Data)`. The
  identifiers are minted once per node. Each record is written as a 4-byte
  length followed by its payload.
- **Deserialize** reads the frames back in order. It rebuilds the nodes,
  creating a node when an identifier is first seen and reusing it
  afterwards. It returns the first node.

## How the model is organised

- `wrappers.dfy` (`Wrappers`): `Option` and `Result`.
- `arena.dfy` (`Arena`): the object graph.
  - The heap is a `seq<Node>`. References are indices, and `new ListNode()`
    appends a `Blank` node.
  - A list is described by its `chain`, the ghost sequence of node indices
    from the head along `next`.
  - `Isomorphic` and `Equivalent` say that a result list follows the
    original's `next` order with the same data and the same `random` links,
    up to renaming of nodes. In the result, `previous` is the reverse of
    `next`. The original's `previous` links are not compared, because the
    source never reads them: it rebuilds `Previous` from the walk order.
  - The dictionary lookup-or-allocate-a-node step, which the source writes
    out three times (`Next` and `Random` in `DeepCopy`, `RandomId` in
    `Map(IAsyncEnumerable)`), is defined once, as `Resolve` / `LinkField`.
    The two lookup-or-mint-an-identifier steps of `Map(ListNode)` are
    `Linearizer.MintLink`. The id registration at the top of the
    reconstruction loop is `Reconstructor.Register`.
- `wire.dfy` (`Wire`): the wire record of `SerializableModels/ListNode.cs`.
- `tokens.dfy` (`Tokens`): the identifiers.
  - `Guid.NewGuid().ToString()` becomes the decimal numeral of a counter.
  - Every token parses back to its number, so minted tokens are distinct.
- `bytes.dfy` (`Bytes`): `BitConverter.GetBytes(int)` and `ToInt32`,
  little-endian, with a round trip.
- `payload.dfy` (`Payload`): the byte codec of one record, with a round trip.
- `framing.dfy` (`Framing`): the length-prefixed frames and `GetFromStream`.
- `linearizer.dfy` (`Linearizer`): `Map(ListNode)`, the walk that mints
  identifiers and emits records.
- `deepcopy.dfy` (`DeepCopying`): `DeepCopy`.
- `reconstructor.dfy` (`Reconstructor`): `Map(IAsyncEnumerable)`, the walk
  that rebuilds nodes from records.
- `serializer.dfy` (`Serializer`): the public `Serialize` and `Deserialize`,
  the end-to-end theorems, and the scenarios of the repository's tests.

Each walk is a recursive function over a state record, one call per loop
iteration of the source. Its invariant is a predicate, and a lemma shows
that one step preserves it.

## Model

| member | source | states |
|---|---|---|
| Arena.Resolve | SaberLib/DmitriiSaburovSerializer.cs:30-41 | Looking up a link target either finds its existing entry or allocates exactly one fresh blank node and records it. Old entries and old heap cells never change, and the resulting link names the node the table maps the target to. |
| Arena.LinkField | SaberLib/DmitriiSaburovSerializer.cs:30-54 | Setting `Next` or `Random` of the current node changes only that field of that node. A null target leaves the node as it was. Any new table entry points to a fresh node past the old heap. At most one key is added. |
| Tokens.ParseTokenInverts | SaberLib/DmitriiSaburovSerializer.cs:90 | Every minted identifier can be read back as the counter that produced it, which is what makes identifiers unique. |
| Tokens.TokenInjective | SaberLib/DmitriiSaburovSerializer.cs:105-106 | Two identifiers minted from different counters differ, as fresh Guids do. |
| Bytes.Int32Bytes | SaberLib/DmitriiSaburovSerializer.cs:79 | The length prefix of a frame is exactly four bytes. |
| Bytes.ReadInt32 | SaberLib/DmitriiSaburovSerializer.cs:142 | Four bytes always read back as a value in the C# `int` range. |
| Bytes.Int32RoundTrip | SaberLib/DmitriiSaburovSerializer.cs:139-142 | Reading the first four bytes of an encoded `int` gives that `int` back, whatever follows. |
| Bytes.ReadInt32Inverts | SaberLib/DmitriiSaburovSerializer.cs:139-142 | Any four bytes are the encoding of the `int` they read as, so reading and writing a prefix are inverse in both directions. |
| Payload.EncodeRecord | SaberLib/DmitriiSaburovSerializer.cs:77 | The payload of a record that fits is shorter than 2^31 bytes, so its length fits the `int` prefix. |
| Payload.DecodeCharsRoundTrip | SaberLib/SerializableModels/ListNode.cs:18-22 | Encoded characters decode to the same string and leave the following bytes untouched. |
| Payload.DecodeOptStringRoundTrip | SaberLib/SerializableModels/ListNode.cs:20-22 | A nullable string, null included, decodes back to itself and leaves the rest of the input. |
| Payload.RecordRoundTrip | SaberLib/SerializableModels/ListNode.cs:8-22 | Decoding the payload of a record gives the same `Id`, `RandomId` and `Data`. |
| Payload.DecodeRecord | SaberLib/DmitriiSaburovSerializer.cs:147 | A payload that decodes has exactly the length the codec gives the record: twelve header bytes and four bytes per character. A null `Id` is rejected. |
| Payload.DecodeCharsExact | SaberLib/SerializableModels/ListNode.cs:18-22 | Characters that decode were written as the encoding of the decoded string followed by the bytes left over. |
| Payload.DecodeOptStringExact | SaberLib/SerializableModels/ListNode.cs:20-22 | A nullable string that decodes was written as its encoding followed by the bytes left over. |
| Payload.DecodeRecordCanonical | SaberLib/SerializableModels/ListNode.cs:8-22 | A payload that decodes to a record that fits is exactly that record's encoding, so each record has one payload. |
| Framing.ReadFrame | SaberLib/DmitriiSaburovSerializer.cs:138-147 | Fewer than four bytes is a truncation error and a negative prefix is `NegativeLength`. Otherwise the read succeeds exactly when the payload fits in the rest of the stream, and fails as a truncation when it does not. A payload that is read has the prefix's length, payload and remainder together are everything after the prefix, and at least one byte is consumed. |
| Framing.Frame | SaberLib/DmitriiSaburovSerializer.cs:75-82 | Nothing is written exactly when there are no records, and every frame takes at least its four prefix bytes. |
| Framing.ReadFrameExact | SaberLib/DmitriiSaburovSerializer.cs:138-145 | A frame that reads was written as its prefix, its payload and the rest of the stream. |
| Framing.ReadFrameRoundTrip | SaberLib/DmitriiSaburovSerializer.cs:79-81 | A frame written as prefix plus payload reads back as that payload, with the rest of the stream left over. |
| Framing.FrameRoundTrip | SaberLib/DmitriiSaburovSerializer.cs:75-82 | A standalone statement about the framing layer, independent of the record codec: splitting the bytes of a sequence of written frames with `Unframe` gives back the same payloads, in order. `GetFromStream` does not go through `Unframe`; it interleaves the same frame reads with decoding. |
| Framing.EncodeAll | SaberLib/DmitriiSaburovSerializer.cs:75-77 | There is one payload per record, in record order, and every payload fits a frame. |
| Framing.GetFromStream | SaberLib/DmitriiSaburovSerializer.cs:134-149 | An empty stream yields no records, a non-empty stream that reads yields at least one, and every record read accounts for at least sixteen bytes. |
| Framing.GetFromStreamStep | SaberLib/DmitriiSaburovSerializer.cs:137-148 | A stream that starts with one framed record yields that record followed by whatever the rest of the stream yields. |
| Framing.GetFromStreamRoundTrip | SaberLib/DmitriiSaburovSerializer.cs:134-149 | Reading back the frames written for a sequence of records yields exactly those records, in order. |
| Framing.GetFromStreamExact | SaberLib/DmitriiSaburovSerializer.cs:134-149 | A stream that reads back as records that fit is exactly the stream written for them, so writing and reading are inverse in both directions. |
| Linearizer.MintLink | SaberLib/DmitriiSaburovSerializer.cs:96-122 | A non-null link gets the identifier already assigned to its target, or one freshly minted. A null link gets none. Earlier assignments are kept, and the assigned identifiers stay pairwise distinct. |
| Linearizer.LinStep | SaberLib/DmitriiSaburovSerializer.cs:96-130 | One iteration appends exactly one record and keeps the earlier ones. The record carries the current identifier and the node's data. Its `RandomId` is null exactly when `Random` is, and otherwise is the identifier the table assigns to the target. The next current identifier is null exactly when `Next` is, and otherwise is the table's identifier for `Next`. The table only grows, and its identifiers stay distinct tokens below the counter. |
| Linearizer.LinInvInit | SaberLib/DmitriiSaburovSerializer.cs:88-92 | Once the head has its identifier, the walk invariant holds before the first node is emitted. |
| Linearizer.LinStepPreserves | SaberLib/DmitriiSaburovSerializer.cs:94-131 | Emitting one record preserves the invariant. Every emitted record carries its node's data, the identifier of its node, and the identifier of its `Random` target. Identifiers never collide. |
| Linearizer.LinWalk | SaberLib/DmitriiSaburovSerializer.cs:94-131 | The loop ends having emitted a record for every node of the list, with the invariant intact. |
| Linearizer.EmittedRandom | SaberLib/DmitriiSaburovSerializer.cs:110-122 | Record k names record j's identifier as its `RandomId` exactly when node k's `Random` is node j. |
| Linearizer.EmittedDistinct | SaberLib/DmitriiSaburovSerializer.cs:88-120 | The emitted records have pairwise distinct identifiers. |
| Linearizer.LinInvEncodes | SaberLib/DmitriiSaburovSerializer.cs:124-127 | The finished output encodes the list. There is one record per node, in list order, with the node's data, distinct identifiers, null `RandomId` exactly for a null `Random`, and matching `Random` targets. |
| Linearizer.Linearize | SaberLib/DmitriiSaburovSerializer.cs:85-132 | The records encode the list in order, including its `Random` links. The head's record carries the first minted identifier. Identifiers are bounded in length by the list length. |
| Linearizer.EncodesResolved | SaberLib/DmitriiSaburovSerializer.cs:110-122 | Every `RandomId` the linearizer emits names some record of the same output, so no target dangles. |
| DeepCopying.CopyInvInit | SaberLib/DmitriiSaburovSerializer.cs:18-23 | After the head's copy is allocated and registered, the copy invariant holds with nothing copied yet. |
| DeepCopying.CopyStepFrame | SaberLib/DmitriiSaburovSerializer.cs:27-54 | One iteration writes only the current copy, and any nodes it allocates are blank. |
| DeepCopying.CopyStepKeepsSource | SaberLib/DmitriiSaburovSerializer.cs:27-54 | One iteration never writes a node of the original list. |
| DeepCopying.CopyStepTable | SaberLib/DmitriiSaburovSerializer.cs:32-52 | The original-to-copy dictionary only grows. Every new entry maps to a freshly allocated node, and entries stay pairwise distinct. |
| DeepCopying.CopyStep | SaberLib/DmitriiSaburovSerializer.cs:27-58 | The current copy gets the original's data, the previous copy, and `Next`/`Random` links to the copies the dictionary assigns. A null `Next` or `Random` leaves that field as it was. The heap only grows, and the walk moves on to the copy of `Next` with the current copy as the previous one. |
| DeepCopying.CopyStepPreserves | SaberLib/DmitriiSaburovSerializer.cs:25-58 | One iteration preserves the copy invariant, extending the filled prefix by one node. |
| DeepCopying.CopyWalk | SaberLib/DmitriiSaburovSerializer.cs:25-59 | The loop ends with every node of the list copied and the invariant intact. |
| DeepCopying.CopyInvShape | SaberLib/DmitriiSaburovSerializer.cs:27-58 | The copies form a list in the original's `Next` order with the same data. Each copy's `Previous` is rebuilt as the reverse of `Next`; the original's `Previous` links are not read. |
| DeepCopying.CopyInvDistinct | SaberLib/DmitriiSaburovSerializer.cs:30-54 | Distinct originals get distinct copies. |
| DeepCopying.CopyInvIsomorphic | SaberLib/DmitriiSaburovSerializer.cs:25-59 | The copies form a list isomorphic to the original, including every `Random` link. |
| DeepCopying.DeepCopy | SaberLib/DmitriiSaburovSerializer.cs:16-62 | The original nodes are untouched, and every copy is a new node. The copied list is isomorphic to the original, including `Random`, and the returned head is the copy of the head. |
| Reconstructor.RebuildStep | SaberLib/DmitriiSaburovSerializer.cs:162-196 | One iteration keeps the builder's table, previous-node and current-node references inside the heap. It allocates a fresh blank current node for the next record. Earlier id registrations are kept, the record's id is registered to the node it writes, and that node becomes the previous node. |
| Reconstructor.RebuildWalk | SaberLib/DmitriiSaburovSerializer.cs:162-196 | The loop keeps every reference inside the heap, allocates at least one node per record, and never drops or changes an id registration. |
| Reconstructor.RebuildWalkRegisters | SaberLib/DmitriiSaburovSerializer.cs:162-171 | After the loop, the id of every record it read is registered. |
| Reconstructor.RegisterFresh | SaberLib/DmitriiSaburovSerializer.cs:164-171 | A record's id is registered to the current fresh node unless it was already known. Earlier registrations are unchanged, and registered nodes stay distinct. |
| Reconstructor.RebuildStepFrame | SaberLib/DmitriiSaburovSerializer.cs:172-195 | One iteration writes only the current node and the previous node's `Next`. The previous node's `Next` becomes the current node. Any nodes it allocates are blank, and the next iteration's current node is the last one allocated. |
| Reconstructor.RebuildStepNode | SaberLib/DmitriiSaburovSerializer.cs:172-191 | The current node gets the record's data and the previous node, and its `Random` is the node registered for `RandomId`. A null `RandomId` leaves its `Random` as it was, and its own `Next` is left as it was. |
| Reconstructor.RebuildStepTable | SaberLib/DmitriiSaburovSerializer.cs:164-190 | The id-to-node dictionary only grows, and its new entries map to fresh nodes. |
| Reconstructor.StepNodeIsFresh | SaberLib/DmitriiSaburovSerializer.cs:164-171 | With distinct ids, each record is written into a blank node not yet on the rebuilt list. |
| Reconstructor.RebuildStepPreserves | SaberLib/DmitriiSaburovSerializer.cs:162-196 | With distinct ids, one iteration extends the rebuilt prefix by one correctly linked node and keeps every earlier node correct. |
| Reconstructor.RebuildWalkPreserves | SaberLib/DmitriiSaburovSerializer.cs:162-196 | With distinct ids, the whole loop leaves the invariant holding for all records. |
| Reconstructor.RebuildInvShape | SaberLib/DmitriiSaburovSerializer.cs:172-177 | The rebuilt nodes form a list in record order, carrying the records' data and the `Random` targets the dictionary names. |
| Reconstructor.RebuildInvDangling | SaberLib/DmitriiSaburovSerializer.cs:186-190 | A `RandomId` that no record defines points to a placeholder node off the list with null data. |
| Reconstructor.RebuildInvBuilds | SaberLib/DmitriiSaburovSerializer.cs:162-196 | Every record id is registered, and the rebuilt list is exactly the registered nodes in record order. |
| Reconstructor.RebuildWalkBuilds | SaberLib/DmitriiSaburovSerializer.cs:151-199 | With distinct ids, running the whole reconstruction builds the records' list from the head. |
| Reconstructor.Reconstruct | SaberLib/DmitriiSaburovSerializer.cs:151-199 | The returned head is a node of the heap, and an empty record stream gives a fresh blank node. With distinct ids, the nodes form a list in record order. They carry the records' data, and each `Random` is the node of the named record or a data-less placeholder. |
| Serializer.LinearizedFit | SaberLib/DmitriiSaburovSerializer.cs:73-77 | For a list within the size bounds, every emitted record is small enough to encode. |
| Serializer.Serialize | SaberLib/DmitriiSaburovSerializer.cs:71-83 | The bytes written read back, frame by frame, as exactly the records the linearizer emits for the list. |
| Serializer.Deserialize | SaberLib/DmitriiSaburovSerializer.cs:64-69 | It succeeds exactly when every frame of the stream can be read, and otherwise reports the reader's error. The head returned is a node of the heap, and an empty stream gives one blank node. When the records read have distinct ids, the returned list is the list they describe. Every id is registered. The registered nodes form a list in record order, headed by the returned head, with the records' data. Each `Random` is the node of the record its `RandomId` names, or a data-less placeholder when no record has that id. |
| Serializer.EncodesBuildsRandom | SaberLib/DmitriiSaburovSerializer.cs:110-191 | A `Random` link survives the trip through identifiers: node k points to node j exactly when rebuilt node k points to rebuilt node j. |
| Serializer.EncodesBuildsIsomorphic | SaberLib/DmitriiSaburovSerializer.cs:85-199 | Rebuilding from records that encode a list gives a list isomorphic to it. |
| Serializer.ReconstructEncoded | SaberLib/DmitriiSaburovSerializer.cs:151-199 | Reconstructing the records that encode a non-empty list yields a list equivalent to the original. |
| Serializer.SerializeRoundTrip | SaberLib/DmitriiSaburovSerializer.cs:64-83 | Deserializing what was serialized succeeds and gives a list equivalent to the original: same `Next` order, data and `Random` links. `Previous` is rebuilt as the reverse of `Next`; the original's `Previous` links are not read. |
| Serializer.DeepCopyEquivalent | SaberLib/DmitriiSaburovSerializer.cs:16-62 | A deep copy is equivalent to the original list. |
| Serializer.IsomorphicCompose | SaberLib/DmitriiSaburovSerializer.cs:16-83 | Two lists isomorphic to the same original are isomorphic to each other. |
| Serializer.DeepCopyMatchesRoundTrip | SaberLib/DmitriiSaburovSerializer.cs:16-83 | A deep copy and a serialize-deserialize round trip of the same list give isomorphic lists. |
| Serializer.TestShapeFromIsomorphic | SaberLib.Tests/DmitriiSaburovSerializerTests.cs:49-98 | Any list isomorphic to the tests' four-node list has the asserted data, `Previous`, `Next` and `Random` pattern. |
| Serializer.TestListValid | SaberLib.Tests/DmitriiSaburovSerializerTests.cs:15-39 | The tests' four-node list is a valid list within the size bounds. |
| Serializer.DeepCopyScenario | SaberLib.Tests/DmitriiSaburovSerializerTests.cs:105-187 | The deep copy of the tests' list satisfies every assertion of the deep-copy test. |
| Serializer.RoundTripScenario | SaberLib.Tests/DmitriiSaburovSerializerTests.cs:13-99 | Serializing and deserializing the tests' list succeeds and satisfies every assertion of the serialization test. |
| Serializer.SelfLoopFromIsomorphic | SaberLib/DmitriiSaburovSerializer.cs:43-54 | A one-node list whose `Random` is itself stays self-referential under any isomorphism. |
| Serializer.SelfLoopScenario | SaberLib/DmitriiSaburovSerializer.cs:16-83 | For a one-node list whose `Random` is the node itself, both the deep copy and the round trip return a head whose `Random` is that head. |

## Left out

- Asynchrony: `Task`, `IAsyncEnumerable`, `await`, `ReadAsync`/`WriteAsync`
  and `Seek` are not modelled. The stream is a byte sequence consumed from
  its start, and `Deserialize` reads it from position 0.
- MemoryPack is a foreign library. `Payload` is a concrete stand-in codec
  with the same interface. Strings are a 4-byte length (-1 for null)
  followed by 4 bytes per character. The end-to-end theorems rely only on
  its round trip. The lines below name the contracts that state facts about
  the stand-in's layout, which are not claimed for MemoryPack.
- Payload.DecodeRecord: the exact payload length (12 bytes plus 4 per
  character) is a fact about the stand-in codec only. MemoryPack adds an
  object header and has more than one string form.
- Framing.GetFromStream: the bound of at least 16 bytes per record follows
  from the stand-in codec's layout and is not claimed for MemoryPack.
- Payload.DecodeCharsExact, Payload.DecodeOptStringExact,
  Payload.DecodeRecordCanonical, Framing.GetFromStreamExact: that each
  record has exactly one encoding, so that reading and writing are inverse
  in both directions, holds of the stand-in codec only. For MemoryPack only
  the direction write-then-read is relied on.
- `Guid.NewGuid()` is randomness. Identifiers are decimal numerals of a
  counter. The property the source relies on, that fresh identifiers never
  collide, is proved.
- `BitConverter` uses the machine's byte order. The model fixes it as
  little-endian.
- Reference equality and hashing of `ListNode` become arena indices, and
  allocation appends to the heap. Garbage and the object identity of
  unreachable nodes are not modelled.
- Framing.ReadFrame: the source does not check how many bytes `ReadAsync`
  returned. A stream cut short inside a prefix or payload is reported as
  `Truncated` instead of decoding the zero-padded buffer.
- Framing.ReadFrame: a negative length prefix makes the source throw while
  allocating the buffer. The model reports `NegativeLength`.
- Framing.GetFromStream: a payload the stand-in codec cannot decode is
  `MalformedPayload`. The source would throw or return null from MemoryPack.
- Serializer.Serialize: requires `Fits`, which bounds the list to fewer
  than 2^24 nodes and each data string to fewer than 2^26 characters. The
  bound comes from the model, not from the source. The model proves only a
  linear bound on its counter identifiers (`Tokens.TokenLength`: at most
  n + 1 characters), and the stand-in codec spends four bytes per
  character, so a record must stay below 2^28 characters for its payload
  length to fit the `int` prefix. The source's identifiers are
  36-character Guids, and MemoryPack's layout is different. The source
  therefore serializes longer lists and longer strings without trouble,
  and the model says nothing about them.
- Linearizer.Linearize, DeepCopying.DeepCopy: require a finite, acyclic
  `next` chain whose `Previous` links are unconstrained and whose `Random`
  targets are nodes of the list. On a cyclic list the source loops forever,
  and a `Random` that points outside the list is not a list the interface
  describes.
- DeepCopying.DeepCopy, Linearizer.Linearize, Serializer.Serialize: a
  null head cannot be passed. The head is a heap index, and the chain has
  at least one node. The source throws `ArgumentNullException` from
  `Dictionary.Add` on a null head: in `DeepCopy` at
  SaberLib/DmitriiSaburovSerializer.cs:20, and in `Serialize` at :92 when
  the records are first enumerated.
- Serializer.SerializeRoundTrip: assumes `Serialize` writes into an empty
  stream. The source writes at the stream's current position, while
  `Deserialize` seeks to position 0 and reads to the end (:66, :137). Bytes
  already in the stream would be read back in front of the list.
- Strings: a Dafny `char` is a Unicode scalar value, while a C# `string`
  is a sequence of UTF-16 code units. A string with an unpaired surrogate
  cannot be represented in the model.
- Reconstructor.Reconstruct: the list-shape guarantees are stated only
  for record streams with distinct ids, which is all `Serialize` produces.
  For duplicate ids the source reuses the earlier node, and the model
  computes the same steps but states only that the head is in the heap.
- Framing.GetFromStream: its contract does not say which bad frame's error
  is reported when several frames are bad. The body stops at the first bad
  frame in stream order, as the source does, and `Serializer.Deserialize`
  passes that error on unchanged.
- The returned dictionaries (`copyOf`, `nodeOf`) are extra outputs of the
  model that state the correspondence. The source discards them.
- The performance test (SaberLib.Tests/DmitriiSaburovSerializerTests.cs,
  from line 190) measures time and is not modelled.

=== FILE: arena.dfy ===
/** The in-memory `ListNode` graph, modelled as an arena: a sequence of node
    records addressed by index, with `Option<nat>` index links standing for
    nullable object references. Allocating a `new ListNode()` appends a
    `Blank` node; two references are the same object exactly when they are
    the same index. */
module Arena {
  import opened Wrappers

  /** One `ListNode`: payload, forward link, back link and the auxiliary
      `Random` link, which may target any node. */
  datatype Node = Node(data: Option<string>, next: Option<nat>, previous: Option<nat>, random: Option<nat>)

  type Heap = seq<Node>

  /** A freshly constructed node: every field null. */
  const Blank: Node := Node(None, None, None, None)

  /** The `k`-th chain position as a nullable reference: null past the end. */
  function At(chain: seq<nat>, k: nat): Option<nat>
  {
    if k < |chain| then Some(chain[k]) else None
  }

  /** The reference to the node before chain position `k`: null at the
      first position. */
  function Before(chain: seq<nat>, k: nat): Option<nat>
  {
    if 0 < k <= |chain| then Some(chain[k - 1]) else None
  }

  /** The indices of `chain` are pairwise distinct. */
  ghost predicate Distinct(chain: seq<nat>)
  {
    forall i, j :: 0 <= i < |chain| && 0 <= j < |chain| && i != j ==> chain[i] != chain[j]
  }

  /** `chain` lists, in order, the nodes reached by following `next` from
      `chain[0]`, ending at the node whose `next` is null. This is the finite,
      acyclic forward chain the algorithms walk. */
  ghost predicate IsChain(h: Heap, chain: seq<nat>)
  {
    && |chain| >= 1
    && (forall k :: 0 <= k < |chain| ==> chain[k] < |h|)
    && Distinct(chain)
    && (forall k {:trigger h[chain[k]]} :: 0 <= k < |chain| ==> h[chain[k]].next == At(chain, k + 1))
  }

  /** The precondition of every operation on a source list: the forward
      chain from `head` is finite and acyclic, and every non-null `random`
      targets a node of that chain. */
  ghost predicate ValidList(h: Heap, head: nat, chain: seq<nat>)
  {
    && IsChain(h, chain)
    && chain[0] == head
    && (forall k {:trigger h[chain[k]]} :: 0 <= k < |chain| && h[chain[k]].random.Some? ==> h[chain[k]].random.value in chain)
  }

  /** `nodes` is a well-linked result chain: in bounds, distinct, `next`
      runs forward along `nodes` and ends in null, and `previous` is exactly
      the reverse of `next` (null on the first node). */
  ghost predicate Shape(h: Heap, nodes: seq<nat>)
  {
    && (forall k :: 0 <= k < |nodes| ==> nodes[k] < |h|)
    && Distinct(nodes)
    && (forall k :: 0 <= k < |nodes| ==> h[nodes[k]].next == At(nodes, k + 1))
    && (forall k :: 0 <= k < |nodes| ==> h[nodes[k]].previous == Before(nodes, k))
  }

  /** The `random` links of position `k` in both graphs agree up to the
      position-wise correspondence `chain[i] <-> chain2[i]`: both null, or
      both pointing at the same chain position. */
  ghost predicate SameRandom(h: Heap, chain: seq<nat>, h2: Heap, chain2: seq<nat>, k: nat)
    requires |chain| == |chain2| && k < |chain|
    requires forall i :: 0 <= i < |chain| ==> chain[i] < |h| && chain2[i] < |h2|
  {
    && (h[chain[k]].random.None? <==> h2[chain2[k]].random.None?)
    && (forall j :: 0 <= j < |chain| ==> (h[chain[k]].random == Some(chain[j]) <==> h2[chain2[k]].random == Some(chain2[j])))
  }

  /** The result chain `chain2` in `h2` has the structure of the source
      chain `chain` in `h`: same length, well linked (with `previous` rebuilt
      as the reverse of `next`), the same payload at each position, and the
      same `random` pattern under the bijection `chain[i] <-> chain2[i]`. */
  ghost predicate Isomorphic(h: Heap, chain: seq<nat>, h2: Heap, chain2: seq<nat>)
  {
    && |chain2| == |chain|
    && (forall i :: 0 <= i < |chain| ==> chain[i] < |h|)
    && Shape(h2, chain2)
    && (forall k :: 0 <= k < |chain| ==> h2[chain2[k]].data == h[chain[k]].data)
    && (forall k :: 0 <= k < |chain| ==> SameRandom(h, chain, h2, chain2, k))
  }

  /** Some result chain starting at `head2` is isomorphic to the source
      chain: the "equal up to a bijection of nodes" relation. */
  ghost predicate Equivalent(h: Heap, chain: seq<nat>, h2: Heap, head2: nat)
  {
    exists chain2 :: |chain2| >= 1 && chain2[0] == head2 && Isomorphic(h, chain, h2, chain2)
  }

  /** The nodes a table assigns to `keys`, in order. */
  function Image<K>(m: map<K, nat>, keys: seq<K>): (nodes: seq<nat>)
    requires forall i :: 0 <= i < |keys| ==> keys[i] in m
    ensures |nodes| == |keys|
    ensures forall i :: 0 <= i < |keys| ==> nodes[i] == m[keys[i]]
  {
    seq(|keys|, i requires 0 <= i < |keys| => m[keys[i]])
  }

  /** The table `m` maps every key to a distinct node allocated at or
      after `lo` in `h`. */
  ghost predicate FreshTable<K>(h: Heap, m: map<K, nat>, lo: nat)
  {
    && (forall t :: t in m ==> lo <= m[t] < |h|)
    && (forall t, u :: t in m && u in m && t != u ==> m[t] != m[u])
  }

  /** Result of resolving a nullable reference through an identity table:
      the heap (possibly grown by a placeholder), the table (possibly grown
      by one entry) and the node the reference resolved to. */
  datatype Linked<K> = Linked(heap: Heap, table: map<K, nat>, node: Option<nat>)

  /** `target` is the table's image of the nullable key `link`. */
  ghost predicate Maps<K>(m: map<K, nat>, link: Option<K>, target: Option<nat>)
  {
    || (link.None? && target.None?)
    || (link.Some? && link.value in m && target == Some(m[link.value]))
  }

  /** The `TryGetValue`-else-`new ListNode()`-and-`Add` pattern: a key the
      table already knows resolves to its node, an unknown key gets a blank
      placeholder node, registered so that later references reuse it. */
  function Resolve<K>(heap: Heap, table: map<K, nat>, link: Option<K>): (m: Linked<K>)
    ensures |m.heap| >= |heap| && m.heap[..|heap|] == heap
    ensures forall i :: |heap| <= i < |m.heap| ==> m.heap[i] == Blank
    ensures forall t :: t in table ==> t in m.table && m.table[t] == table[t]
    ensures forall t :: t in m.table ==> t in table || link == Some(t)
    ensures Maps(m.table, link, m.node)
    ensures forall t :: t in m.table && t !in table ==> |heap| <= m.table[t] < |m.heap|
    ensures link.None? || link.value in table ==> m.heap == heap && m.table == table
    ensures link.Some? && link.value !in table ==>
      m.heap == heap + [Blank] && m.table == table[link.value := |heap|] && m.node == Some(|heap|)
  {
    match link
    case None => Linked(heap, table, None)
    case Some(t) =>
      if t in table then Linked(heap, table, Some(table[t]))
      else Linked(heap + [Blank], table[t := |heap|], Some(|heap|))
  }

  /** Resolves `link` and stores the resulting node in the `next` field of
      `cur` (the `random` field when `isNext` is false); a null `link`
      leaves the field as it was. */
  function LinkField<K>(heap: Heap, table: map<K, nat>, cur: nat, link: Option<K>, isNext: bool): (m: Linked<K>)
    requires cur < |heap|
    ensures |m.heap| >= |heap|
    ensures forall i :: 0 <= i < |heap| && i != cur ==> m.heap[i] == heap[i]
    ensures forall i :: |heap| <= i < |m.heap| ==> m.heap[i] == Blank
    ensures m.heap[cur].data == heap[cur].data && m.heap[cur].previous == heap[cur].previous
    ensures isNext ==> m.heap[cur].random == heap[cur].random
    ensures !isNext ==> m.heap[cur].next == heap[cur].next
    ensures link.None? ==> m.heap[cur] == heap[cur]
    ensures link.Some? ==> Maps(m.table, link, if isNext then m.heap[cur].next else m.heap[cur].random)
    ensures forall t :: t in table ==> t in m.table && m.table[t] == table[t]
    ensures forall t :: t in m.table && t !in table ==> |heap| <= m.table[t] < |m.heap|
    ensures forall t, u :: t in m.table && u in m.table && t != u && t !in table ==> u in table
  {
    var l := Resolve(heap, table, link);
    if l.node.None? then l
    else if isNext then Linked(l.heap[cur := l.heap[cur].(next := l.node)], l.table, l.node)
    else Linked(l.heap[cur := l.heap[cur].(random := l.node)], l.table, l.node)
  }

  /** Resolving a link keeps a fresh table fresh and injective. */
  lemma LinkFieldFresh<K>(heap: Heap, table: map<K, nat>, cur: nat, link: Option<K>, isNext: bool, lo: nat)
    requires cur < |heap| && FreshTable(heap, table, lo) && lo <= |heap|
    ensures FreshTable(LinkField(heap, table, cur, link, isNext).heap, LinkField(heap, table, cur, link, isNext).table, lo)
  {
  }
}

=== FILE: bytes.dfy ===
/** Bytes and the 4-byte integer of `BitConverter.GetBytes(int)` /
    `BitConverter.ToInt32`, fixed here as little-endian two's complement. */
module Bytes {

  newtype byte = b: int | 0 <= b < 256

  const Int32Modulus: int := 0x1_0000_0000

  /** `n` fits a C# `int`. */
  predicate IsInt32(n: int)
  {
    -0x8000_0000 <= n < 0x8000_0000
  }

  /** `BitConverter.GetBytes(n)`: the four bytes of `n`, least
      significant first, negative values in two's complement. */
  function Int32Bytes(n: int): (bs: seq<byte>)
    requires IsInt32(n)
    ensures |bs| == 4
  {
    var u := if n < 0 then n + Int32Modulus else n;
    [(u % 256) as byte, (u / 0x100 % 256) as byte, (u / 0x1_0000 % 256) as byte, (u / 0x100_0000) as byte]
  }

  /** `BitConverter.ToInt32(bs, 0)`: the signed value of the first four
      bytes. */
  function ReadInt32(bs: seq<byte>): (n: int)
    requires |bs| >= 4
    ensures IsInt32(n)
  {
    var u := bs[0] as int + 0x100 * bs[1] as int + 0x1_0000 * bs[2] as int + 0x100_0000 * bs[3] as int;
    if u >= 0x8000_0000 then u - Int32Modulus else u
  }

  lemma UnsignedDigits(u: int)
    requires 0 <= u < Int32Modulus
    ensures u == u % 256 + 0x100 * (u / 0x100 % 256) + 0x1_0000 * (u / 0x1_0000 % 256) + 0x100_0000 * (u / 0x100_0000)
  {
    var a := u / 0x100;
    var b := a / 0x100;
    assert u == u % 256 + 0x100 * a;
    assert a == a % 256 + 0x100 * b;
    assert b == b % 256 + 0x100 * (b / 0x100);
    assert u / 0x1_0000 == b;
    assert u / 0x100_0000 == b / 0x100;
  }

  /** Reading back the bytes written for an `int` gives the same `int`. */
  lemma Int32RoundTrip(n: int, rest: seq<byte>)
    requires IsInt32(n)
    ensures ReadInt32(Int32Bytes(n) + rest) == n
  {
    var u := if n < 0 then n + Int32Modulus else n;
    UnsignedDigits(u);
  }

  /** Writing back the `int` read from four bytes gives those four bytes:
      every 4-byte prefix is the encoding of exactly one `int`. */
  lemma ReadInt32Inverts(bs: seq<byte>)
    requires |bs| >= 4
    ensures Int32Bytes(ReadInt32(bs)) == bs[..4]
  {
    var b0, b1, b2, b3 := bs[0] as int, bs[1] as int, bs[2] as int, bs[3] as int;
    var u := b0 + 0x100 * b1 + 0x1_0000 * b2 + 0x100_0000 * b3;
    var a := b1 + 0x100 * b2 + 0x1_0000 * b3;
    var c := b2 + 0x100 * b3;
    assert u == b0 + 0x100 * a;
    assert u % 256 == b0 && u / 0x100 == a;
    assert a % 256 == b1 && a / 0x100 == c;
    assert u / 0x1_0000 == c;
    assert c % 256 == b2 && c / 0x100 == b3;
    assert u / 0x100_0000 == b3;
  }
}

=== FILE: deepcopy.dfy ===
/** `DeepCopy`: a single walk along the source's `next` chain that fills in
    copy nodes, keeping a source-to-copy table so that every reference to a
    source node, through `next` or `random`, lands on the same copy. A copy
    node is allocated as an empty placeholder the first time its source node
    is referenced and is filled in place when the walk reaches it. */
module DeepCopying {
  import opened Wrappers
  import opened Arena

  /** The copy table `copyByListNode`, the growing heap, and the walk's
      `previous` and `current` copy nodes. */
  datatype CopyState = CopyState(heap: Heap, copyOf: map<nat, nat>, previous: Option<nat>, current: Option<nat>)

  /** The returned copy: the heap after the call, the head copy node, and
      the final source-to-copy table. */
  datatype Copied = Copied(heap: Heap, head: nat, copyOf: map<nat, nat>)

  /** One iteration on source node `x`: copy `Data`, set `Previous`, link
      `Next` and `Random` through the table, then advance to the copy's
      `Next`. */
  function CopyStep(h: Heap, x: nat, s: CopyState): (s': CopyState)
    requires x < |h| && s.current.Some? && s.current.value < |s.heap|
    ensures |s'.heap| >= |s.heap|
    ensures s'.heap[s.current.value].data == h[x].data
    ensures s'.heap[s.current.value].previous == s.previous
    ensures h[x].next.None? ==> s'.heap[s.current.value].next == s.heap[s.current.value].next
    ensures h[x].next.Some? ==> Maps(s'.copyOf, h[x].next, s'.heap[s.current.value].next)
    ensures h[x].random.None? ==> s'.heap[s.current.value].random == s.heap[s.current.value].random
    ensures h[x].random.Some? ==> Maps(s'.copyOf, h[x].random, s'.heap[s.current.value].random)
    ensures s'.previous == s.current
    ensures s'.current == s'.heap[s.current.value].next
  {
    var cur := s.current.value;
    var heap1 := s.heap[cur := s.heap[cur].(data := h[x].data, previous := s.previous)];
    var n := LinkField(heap1, s.copyOf, cur, h[x].next, true);
    var r := LinkField(n.heap, n.table, cur, h[x].random, false);
    CopyState(r.heap, r.table, Some(cur), r.heap[cur].next)
  }

  /** The copy of chain position `i` is completely filled in. */
  ghost predicate Filled(h: Heap, chain: seq<nat>, s: CopyState, i: nat)
    requires i < |chain| && chain[i] < |h|
  {
    && chain[i] in s.copyOf
    && s.copyOf[chain[i]] < |s.heap|
    && s.heap[s.copyOf[chain[i]]].data == h[chain[i]].data
    && (i > 0 ==> chain[i - 1] in s.copyOf)
    && s.heap[s.copyOf[chain[i]]].previous == (if i == 0 then None else Some(s.copyOf[chain[i - 1]]))
    && Maps(s.copyOf, h[chain[i]].next, s.heap[s.copyOf[chain[i]]].next)
    && Maps(s.copyOf, h[chain[i]].random, s.heap[s.copyOf[chain[i]]].random)
  }

  /** The walk's invariant after `k` chain nodes have been copied. */
  ghost predicate CopyInv(h: Heap, chain: seq<nat>, k: nat, s: CopyState)
    requires IsChain(h, chain)
  {
    && k <= |chain|
    && |s.heap| >= |h| && s.heap[..|h|] == h
    && FreshTable(s.heap, s.copyOf, |h|)
    && (forall i :: 0 <= i <= k && i < |chain| ==> chain[i] in s.copyOf)
    && (forall i :: 0 <= i < k ==> Filled(h, chain, s, i))
    && (forall j :: k <= j < |chain| && chain[j] in s.copyOf ==> s.heap[s.copyOf[chain[j]]] == Blank)
    && s.current == (if k < |chain| then Some(s.copyOf[chain[k]]) else None)
    && s.previous == (if k == 0 then None else Some(s.copyOf[chain[k - 1]]))
    && chain[0] in s.copyOf && s.copyOf[chain[0]] == |h|
  }

  /** One step changes no existing node except `cur`, and every node it
      allocates is blank. */
  lemma CopyStepFrame(h: Heap, x: nat, s: CopyState)
    requires x < |h| && s.current.Some? && s.current.value < |s.heap|
    ensures |CopyStep(h, x, s).heap| >= |s.heap|
    ensures forall i :: 0 <= i < |s.heap| && i != s.current.value ==> CopyStep(h, x, s).heap[i] == s.heap[i]
    ensures forall i :: |s.heap| <= i < |CopyStep(h, x, s).heap| ==> CopyStep(h, x, s).heap[i] == Blank
  {
    var cur := s.current.value;
    var heap1 := s.heap[cur := s.heap[cur].(data := h[x].data, previous := s.previous)];
    var n := LinkField(heap1, s.copyOf, cur, h[x].next, true);
    assert forall i :: 0 <= i < |s.heap| && i != cur ==> n.heap[i] == s.heap[i];
    assert forall i :: |s.heap| <= i < |n.heap| ==> n.heap[i] == Blank;
  }

  /** One step leaves every node below `cur` untouched; in particular the
      source nodes. */
  lemma CopyStepKeepsSource(h: Heap, x: nat, s: CopyState, lo: nat)
    requires x < |h| && s.current.Some? && lo <= s.current.value < |s.heap|
    ensures CopyStep(h, x, s).heap[..lo] == s.heap[..lo]
  {
    CopyStepFrame(h, x, s);
  }

  /** One step only adds entries to the table, each pointing at a newly
      allocated node, and keeps it fresh and injective. */
  lemma CopyStepTable(h: Heap, x: nat, s: CopyState, lo: nat)
    requires x < |h| && s.current.Some? && s.current.value < |s.heap|
    requires FreshTable(s.heap, s.copyOf, lo) && lo <= |s.heap|
    ensures forall t :: t in s.copyOf ==> t in CopyStep(h, x, s).copyOf && CopyStep(h, x, s).copyOf[t] == s.copyOf[t]
    ensures forall t :: t in CopyStep(h, x, s).copyOf && t !in s.copyOf ==> CopyStep(h, x, s).copyOf[t] >= |s.heap|
    ensures FreshTable(CopyStep(h, x, s).heap, CopyStep(h, x, s).copyOf, lo)
  {
    var cur := s.current.value;
    var heap1 := s.heap[cur := s.heap[cur].(data := h[x].data, previous := s.previous)];
    var n := LinkField(heap1, s.copyOf, cur, h[x].next, true);
    LinkFieldFresh(heap1, s.copyOf, cur, h[x].next, true, lo);
    LinkFieldFresh(n.heap, n.table, cur, h[x].random, false, lo);
  }

  /** A copy filled before the step stays filled: the step only writes
      `cur`, which is not yet the copy of an earlier position. */
  lemma CopyStepKeepsFilled(h: Heap, chain: seq<nat>, k: nat, s: CopyState, i: nat)
    requires IsChain(h, chain) && k < |chain| && i < k
    requires CopyInv(h, chain, k, s)
    ensures Filled(h, chain, CopyStep(h, chain[k], s), i)
  {
    var x := chain[k];
    var cur := s.current.value;
    CopyStepFrame(h, x, s);
    CopyStepTable(h, x, s, |h|);
    assert Filled(h, chain, s, i);
    assert s.copyOf[chain[i]] != cur by {
      assert chain[i] != chain[k];
    }
  }

  /** The step fills the copy of position `k`. */
  lemma CopyStepFillsNew(h: Heap, chain: seq<nat>, k: nat, s: CopyState)
    requires IsChain(h, chain) && k < |chain|
    requires CopyInv(h, chain, k, s)
    ensures Filled(h, chain, CopyStep(h, chain[k], s), k)
  {
    var x := chain[k];
    var cur := s.current.value;
    CopyStepTable(h, x, s, |h|);
    assert s.heap[cur] == Blank;
  }

  lemma CopyStepFills(h: Heap, chain: seq<nat>, k: nat, s: CopyState)
    requires IsChain(h, chain) && k < |chain|
    requires CopyInv(h, chain, k, s)
    ensures forall i :: 0 <= i < k + 1 ==> Filled(h, chain, CopyStep(h, chain[k], s), i)
  {
    forall i | 0 <= i < k + 1
      ensures Filled(h, chain, CopyStep(h, chain[k], s), i)
    {
      if i < k {
        CopyStepKeepsFilled(h, chain, k, s, i);
      } else {
        CopyStepFillsNew(h, chain, k, s);
      }
    }
  }

  lemma CopyStepBlanks(h: Heap, chain: seq<nat>, k: nat, s: CopyState)
    requires IsChain(h, chain) && k < |chain|
    requires CopyInv(h, chain, k, s)
    ensures var s' := CopyStep(h, chain[k], s);
      forall j :: k + 1 <= j < |chain| && chain[j] in s'.copyOf ==> s'.heap[s'.copyOf[chain[j]]] == Blank
  {
    var x := chain[k];
    var cur := s.current.value;
    var s' := CopyStep(h, x, s);
    CopyStepFrame(h, x, s);
    CopyStepTable(h, x, s, |h|);
    forall j | k + 1 <= j < |chain| && chain[j] in s'.copyOf
      ensures s'.heap[s'.copyOf[chain[j]]] == Blank
    {
      if chain[j] in s.copyOf {
        assert s.copyOf[chain[j]] != cur;
      }
    }
  }

  /** After a step every position up to `k + 1` has a copy, and the walk
      moves on to the copy of position `k + 1`. */
  lemma CopyStepAdvances(h: Heap, chain: seq<nat>, k: nat, s: CopyState)
    requires IsChain(h, chain) && k < |chain|
    requires CopyInv(h, chain, k, s)
    ensures var s' := CopyStep(h, chain[k], s);
      && (forall i :: 0 <= i <= k + 1 && i < |chain| ==> chain[i] in s'.copyOf)
      && s'.current == (if k + 1 < |chain| then Some(s'.copyOf[chain[k + 1]]) else None)
  {
    var x := chain[k];
    var s' := CopyStep(h, x, s);
    CopyStepTable(h, x, s, |h|);
    assert s.heap[s.current.value] == Blank;
    assert h[x].next == At(chain, k + 1);
    TableAdvances(chain, k, s.copyOf, s'.copyOf, s'.current);
  }

  /** A table that keeps the copies of positions `0..k` and maps position
      `k + 1`'s node to `current` covers positions `0..k + 1`. */
  lemma TableAdvances(chain: seq<nat>, k: nat, copyOf: map<nat, nat>, copyOf': map<nat, nat>, current: Option<nat>)
    requires k < |chain|
    requires forall i :: 0 <= i <= k ==> chain[i] in copyOf
    requires forall t :: t in copyOf ==> t in copyOf'
    requires At(chain, k + 1).Some? ==> Maps(copyOf', At(chain, k + 1), current)
    requires At(chain, k + 1).None? ==> current.None?
    ensures forall i :: 0 <= i <= k + 1 && i < |chain| ==> chain[i] in copyOf'
    ensures current == (if k + 1 < |chain| then Some(copyOf'[chain[k + 1]]) else None)
  {
    forall i | 0 <= i <= k + 1 && i < |chain|
      ensures chain[i] in copyOf'
    {
      if i <= k {
        assert chain[i] in copyOf;
      }
    }
  }

  lemma CopyStepPreserves(h: Heap, chain: seq<nat>, k: nat, s: CopyState)
    requires IsChain(h, chain) && k < |chain|
    requires CopyInv(h, chain, k, s)
    ensures CopyInv(h, chain, k + 1, CopyStep(h, chain[k], s))
  {
    var x := chain[k];
    var s' := CopyStep(h, x, s);
    CopyStepFrame(h, x, s);
    CopyStepTable(h, x, s, |h|);
    CopyStepKeepsSource(h, x, s, |h|);
    CopyStepAdvances(h, chain, k, s);
    CopyStepFills(h, chain, k, s);
    CopyStepBlanks(h, chain, k, s);
  }

  /** Walks the source chain from `node`, the node at chain position `k`. */
  function CopyWalk(h: Heap, ghost chain: seq<nat>, k: nat, node: Option<nat>, s: CopyState): (r: CopyState)
    requires IsChain(h, chain) && k <= |chain| && node == At(chain, k)
    requires CopyInv(h, chain, k, s)
    ensures CopyInv(h, chain, |chain|, r)
    decreases |chain| - k
  {
    match node
    case None => s
    case Some(x) =>
      CopyStepPreserves(h, chain, k, s);
      CopyWalk(h, chain, k + 1, h[x].next, CopyStep(h, x, s))
  }

  /** The `random` link of a filled copy node is the image of the
      source's, and the table is injective, so both agree position-wise. */
  lemma FilledSameRandom(h: Heap, chain: seq<nat>, s: CopyState, cc: seq<nat>, k: nat)
    requires IsChain(h, chain) && CopyInv(h, chain, |chain|, s)
    requires k < |chain| && |cc| == |chain|
    requires forall i :: 0 <= i < |chain| ==> chain[i] in s.copyOf && cc[i] == s.copyOf[chain[i]] && cc[i] < |s.heap|
    ensures SameRandom(h, chain, s.heap, cc, k)
  {
    assert Filled(h, chain, s, k);
    var src := h[chain[k]].random;
    forall j | 0 <= j < |chain|
      ensures src == Some(chain[j]) <==> s.heap[cc[k]].random == Some(cc[j])
    {
      if s.heap[cc[k]].random == Some(cc[j]) {
        assert src.Some? && src.value in s.copyOf && s.copyOf[src.value] == s.copyOf[chain[j]];
      }
    }
  }

  /** The copy of chain position `k` links to the copies of its chain
      neighbours and carries the source's payload. */
  lemma CopyInvNode(h: Heap, chain: seq<nat>, s: CopyState, cc: seq<nat>, k: nat)
    requires IsChain(h, chain) && CopyInv(h, chain, |chain|, s)
    requires cc == Image(s.copyOf, chain) && k < |chain|
    ensures cc[k] < |s.heap|
    ensures s.heap[cc[k]].next == At(cc, k + 1)
    ensures s.heap[cc[k]].previous == Before(cc, k)
    ensures s.heap[cc[k]].data == h[chain[k]].data
  {
    assert Filled(h, chain, s, k);
    assert h[chain[k]].next == At(chain, k + 1);
    if k + 1 < |chain| {
      assert cc[k + 1] == s.copyOf[chain[k + 1]];
    }
    if k > 0 {
      assert cc[k - 1] == s.copyOf[chain[k - 1]];
    }
  }

  /** The copy chain is well linked, with the source's payloads. */
  lemma CopyInvShape(h: Heap, chain: seq<nat>, s: CopyState)
    requires IsChain(h, chain) && CopyInv(h, chain, |chain|, s)
    ensures Shape(s.heap, Image(s.copyOf, chain))
    ensures forall k :: 0 <= k < |chain| ==> s.heap[Image(s.copyOf, chain)[k]].data == h[chain[k]].data
  {
    var cc := Image(s.copyOf, chain);
    forall k | 0 <= k < |chain|
      ensures cc[k] < |s.heap|
      ensures s.heap[cc[k]].next == At(cc, k + 1)
      ensures s.heap[cc[k]].previous == Before(cc, k)
      ensures s.heap[cc[k]].data == h[chain[k]].data
    {
      CopyInvNode(h, chain, s, cc, k);
    }
    CopyInvDistinct(h, chain, s);
  }

  /** Distinct source nodes have distinct copies. */
  lemma CopyInvDistinct(h: Heap, chain: seq<nat>, s: CopyState)
    requires IsChain(h, chain) && CopyInv(h, chain, |chain|, s)
    ensures Distinct(Image(s.copyOf, chain))
  {
    var cc := Image(s.copyOf, chain);
    forall i, j | 0 <= i < |cc| && 0 <= j < |cc| && i != j
      ensures cc[i] != cc[j]
    {
      assert chain[i] != chain[j];
    }
  }

  lemma CopyInvIsomorphic(h: Heap, chain: seq<nat>, s: CopyState)
    requires IsChain(h, chain) && CopyInv(h, chain, |chain|, s)
    ensures Isomorphic(h, chain, s.heap, Image(s.copyOf, chain))
  {
    var cc := Image(s.copyOf, chain);
    CopyInvShape(h, chain, s);
    forall k | 0 <= k < |chain|
      ensures SameRandom(h, chain, s.heap, cc, k)
    {
      FilledSameRandom(h, chain, s, cc, k);
    }
  }

  lemma CopyInvInit(h: Heap, head: nat, chain: seq<nat>)
    requires ValidList(h, head, chain)
    ensures CopyInv(h, chain, 0, CopyState(h + [Blank], map[head := |h|], None, Some(|h|)))
  {
    var s0 := CopyState(h + [Blank], map[head := |h|], None, Some(|h|));
    assert s0.heap[..|h|] == h;
    assert FreshTable(s0.heap, s0.copyOf, |h|);
    assert chain[0] == head;
    forall j | 0 <= j < |chain| && chain[j] in s0.copyOf
      ensures s0.heap[s0.copyOf[chain[j]]] == Blank
    {
      assert chain[j] == head;
      assert s0.copyOf[chain[j]] == |h|;
    }
    assert s0.current == Some(s0.copyOf[chain[0]]);
  }

  /** `DeepCopy`: the head's copy is allocated before the walk. The copy
      chain is isomorphic to the source chain, every copy node is newly
      allocated (beyond the source's heap), and the source is untouched. */
  function DeepCopy(h: Heap, head: nat, ghost chain: seq<nat>): (r: Copied)
    requires ValidList(h, head, chain)
    ensures |r.heap| >= |h| && r.heap[..|h|] == h
    ensures forall i :: 0 <= i < |chain| ==> chain[i] in r.copyOf
    ensures Isomorphic(h, chain, r.heap, Image(r.copyOf, chain))
    ensures Image(r.copyOf, chain)[0] == r.head
    ensures forall i :: 0 <= i < |chain| ==> r.copyOf[chain[i]] >= |h|
  {
    var s0 := CopyState(h + [Blank], map[head := |h|], None, Some(|h|));
    CopyInvInit(h, head, chain);
    var s := CopyWalk(h, chain, 0, Some(head), s0);
    CopyInvIsomorphic(h, chain, s);
    Copied(s.heap, |h|, s.copyOf)
  }
}

=== FILE: framing.dfy ===
/** Length-prefix framing of the byte stream: every record payload is
    written as a 4-byte length followed by that many bytes, with no header,
    footer or record count; the reader consumes frames until the end of the
    stream. */
module Framing {
  import opened Wrappers
  import opened Bytes
  import opened Wire
  import opened Payload

  /** Every payload's length can be written as an `int` prefix. */
  predicate FramesFit(payloads: seq<seq<byte>>)
  {
    forall i :: 0 <= i < |payloads| ==> |payloads[i]| < 0x8000_0000
  }

  /** The stream written for a sequence of payloads. */
  function Frame(payloads: seq<seq<byte>>): (bs: seq<byte>)
    requires FramesFit(payloads)
    ensures |bs| == 0 <==> |payloads| == 0
    ensures |bs| >= 4 * |payloads|
  {
    if |payloads| == 0 then [] else Int32Bytes(|payloads[0]|) + payloads[0] + Frame(payloads[1..])
  }

  /** Reads one frame off the front of a non-empty stream. A negative
      prefix fails as `new byte[n]` would; a stream that ends before the
      prefix or the payload is complete fails as truncated. */
  function ReadFrame(bs: seq<byte>): (r: Result<(seq<byte>, seq<byte>), StreamError>)
    requires |bs| > 0
    ensures |bs| < 4 ==> r == Failure(Truncated)
    ensures |bs| >= 4 && ReadInt32(bs) < 0 ==> r == Failure(NegativeLength)
    ensures |bs| >= 4 && ReadInt32(bs) >= 0 ==> (r.Success? <==> ReadInt32(bs) <= |bs| - 4)
    ensures |bs| >= 4 && ReadInt32(bs) >= 0 && r.Failure? ==> r.error == Truncated
    ensures r.Success? ==> |r.value.0| == ReadInt32(bs) && r.value.0 + r.value.1 == bs[4..]
    ensures r.Success? ==> |r.value.1| < |bs|
  {
    if |bs| < 4 then Failure(Truncated)
    else
      var n := ReadInt32(bs);
      if n < 0 then Failure(NegativeLength)
      else if |bs| - 4 < n then Failure(Truncated)
      else Success((bs[4..4 + n], bs[4 + n..]))
  }

  /** Splits a whole stream into its payloads without decoding them. This
      is the framing layer on its own, for `FrameRoundTrip`; `GetFromStream`
      performs the same frame reads interleaved with decoding. */
  function Unframe(bs: seq<byte>): Result<seq<seq<byte>>, StreamError>
    decreases |bs|
  {
    if |bs| == 0 then Success([])
    else match ReadFrame(bs)
      case Failure(e) => Failure(e)
      case Success((p, rest)) =>
        match Unframe(rest)
        case Failure(e) => Failure(e)
        case Success(ps) => Success([p] + ps)
  }

  /** Reading the frame at the front of `Int32Bytes(|p|) + p + rest`
      gives `p` and leaves `rest`. */
  lemma ReadFrameRoundTrip(p: seq<byte>, rest: seq<byte>)
    requires |p| < 0x8000_0000
    ensures ReadFrame(Int32Bytes(|p|) + p + rest) == Success((p, rest))
  {
    var bs := Int32Bytes(|p|) + p + rest;
    assert bs == Int32Bytes(|p|) + (p + rest);
    Int32RoundTrip(|p|, p + rest);
    assert bs[4..4 + |p|] == p;
    assert bs[4 + |p|..] == rest;
  }

  /** Unframing a framed sequence gives the same payloads back. */
  lemma {:induction false} FrameRoundTrip(payloads: seq<seq<byte>>)
    requires FramesFit(payloads)
    ensures Unframe(Frame(payloads)) == Success(payloads)
  {
    if |payloads| > 0 {
      var p := payloads[0];
      ReadFrameRoundTrip(p, Frame(payloads[1..]));
      FrameRoundTrip(payloads[1..]);
      assert [p] + payloads[1..] == payloads;
    }
  }

  /** The payloads `Serialize` writes, one per record. */
  function EncodeAll(recs: seq<Record>): (payloads: seq<seq<byte>>)
    requires forall i :: 0 <= i < |recs| ==> RecordFits(recs[i])
    ensures |payloads| == |recs| && FramesFit(payloads)
    ensures forall i :: 0 <= i < |recs| ==> payloads[i] == EncodeRecord(recs[i])
  {
    seq(|recs|, i requires 0 <= i < |recs| => EncodeRecord(recs[i]))
  }

  /** `GetFromStream`: reads frame after frame until the end of the stream
      and decodes each payload as it is read. */
  function GetFromStream(bs: seq<byte>): (r: Result<seq<Record>, StreamError>)
    ensures |bs| == 0 ==> r == Success([])
    ensures r.Success? && |bs| > 0 ==> |r.value| > 0
    ensures r.Success? ==> 16 * |r.value| <= |bs|
    decreases |bs|
  {
    if |bs| == 0 then Success([])
    else match ReadFrame(bs)
      case Failure(e) => Failure(e)
      case Success((p, rest)) =>
        match DecodeRecord(p)
        case Failure(e) => Failure(e)
        case Success(r) =>
          match GetFromStream(rest)
          case Failure(e) => Failure(e)
          case Success(rs) => Success([r] + rs)
  }

  /** One step of the reader: a stream that starts with a well-formed
      frame holding `r` reads as `r` followed by whatever the rest reads as. */
  lemma GetFromStreamStep(r: Record, rest: seq<byte>, rs: seq<Record>)
    requires RecordFits(r)
    requires GetFromStream(rest) == Success(rs)
    ensures GetFromStream(Int32Bytes(|EncodeRecord(r)|) + EncodeRecord(r) + rest) == Success([r] + rs)
  {
    var p := EncodeRecord(r);
    var bs := Int32Bytes(|p|) + p + rest;
    ReadFrameRoundTrip(p, rest);
    RecordRoundTrip(r);
    assert ReadFrame(bs) == Success((p, rest));
  }

  /** The stream written for `recs` starts with the frame of `recs[0]`. */
  lemma FrameFirst(recs: seq<Record>)
    requires |recs| > 0 && forall i :: 0 <= i < |recs| ==> RecordFits(recs[i])
    ensures Frame(EncodeAll(recs)) ==
      Int32Bytes(|EncodeRecord(recs[0])|) + EncodeRecord(recs[0]) + Frame(EncodeAll(recs[1..]))
  {
    var ps := EncodeAll(recs);
    assert ps[0] == EncodeRecord(recs[0]);
    assert ps[1..] == EncodeAll(recs[1..]);
  }

  /** The reader step restated for a whole record sequence: a stream that
      frames `recs[0]` in front of a stream reading as `recs[1..]` reads
      as `recs`. */
  lemma GetFromStreamCons(recs: seq<Record>, bs: seq<byte>, rest: seq<byte>)
    requires |recs| > 0 && RecordFits(recs[0])
    requires bs == Int32Bytes(|EncodeRecord(recs[0])|) + EncodeRecord(recs[0]) + rest
    requires GetFromStream(rest) == Success(recs[1..])
    ensures GetFromStream(bs) == Success(recs)
  {
    var r, rs := recs[0], recs[1..];
    assert [r] + rs == recs;
    GetFromStreamStep(r, rest, rs);
  }

  /** Reading back the stream written for `recs` gives `recs`. */
  lemma {:induction false} GetFromStreamRoundTrip(recs: seq<Record>)
    requires forall i :: 0 <= i < |recs| ==> RecordFits(recs[i])
    ensures GetFromStream(Frame(EncodeAll(recs))) == Success(recs)
  {
    if |recs| > 0 {
      FrameFirst(recs);
      GetFromStreamRoundTrip(recs[1..]);
      GetFromStreamCons(recs, Frame(EncodeAll(recs)), Frame(EncodeAll(recs[1..])));
    }
  }

  /** A frame that reads was written as its prefix, its payload and the
      rest of the stream. */
  lemma ReadFrameExact(bs: seq<byte>)
    requires |bs| > 0 && ReadFrame(bs).Success?
    ensures bs == Int32Bytes(|ReadFrame(bs).value.0|) + ReadFrame(bs).value.0 + ReadFrame(bs).value.1
  {
    ReadInt32Inverts(bs);
    assert bs == bs[..4] + bs[4..];
  }

  /** The other half of the round trip: a stream that reads back as records
      small enough to encode is exactly the stream written for them. */
  lemma {:induction false} GetFromStreamExact(bs: seq<byte>)
    requires GetFromStream(bs).Success?
    requires forall i :: 0 <= i < |GetFromStream(bs).value| ==> RecordFits(GetFromStream(bs).value[i])
    ensures Frame(EncodeAll(GetFromStream(bs).value)) == bs
    decreases |bs|
  {
    if |bs| > 0 {
      var recs := GetFromStream(bs).value;
      var (p, rest) := ReadFrame(bs).value;
      var rs := GetFromStream(rest).value;
      var r := DecodeRecord(p).value;
      assert recs == [r] + rs;
      assert recs[1..] == rs;
      assert RecordFits(r) by { assert recs[0] == r; }
      GetFromStreamExact(rest);
      DecodeRecordCanonical(p);
      ReadFrameExact(bs);
      var ps := EncodeAll(recs);
      assert ps[0] == p;
      assert ps[1..] == EncodeAll(rs);
    }
  }
}

=== FILE: linearizer.dfy ===
/** The linearizing `Map(ListNode)`: one walk along `next`, giving every
    referenced node an identity token the first time it is referenced and
    emitting one `(Id, RandomId, Data)` record per chain node. */
module Linearizer {
  import opened Wrappers
  import opened Arena
  import opened Wire
  import opened Tokens

  /** The identity table `idByListNode` together with the token counter. */
  datatype LinState = LinState(ids: map<nat, string>, counter: nat, curId: Option<string>, out: seq<Record>)

  /** Result of resolving one (nullable) link against the identity table. */
  datatype Minted = Minted(ids: map<nat, string>, counter: nat, id: Option<string>)

  /** Every token in the table was minted before `counter` (and so is no
      longer than `counter`), and no two nodes share a token. */
  ghost predicate TokenTable(ids: map<nat, string>, counter: nat)
  {
    && (forall t :: t in ids ==> ParseToken(ids[t]) < counter && |ids[t]| <= counter)
    && (forall t, u :: t in ids && u in ids && t != u ==> ids[t] != ids[u])
  }

  /** Looks a link's target up in the table and mints a fresh token only
      when it has none yet; a null link gives a null id. */
  function MintLink(ids: map<nat, string>, counter: nat, link: Option<nat>): (m: Minted)
    ensures counter <= m.counter <= counter + 1
    ensures forall t :: t in ids ==> t in m.ids && m.ids[t] == ids[t]
    ensures forall t :: t in m.ids ==> t in ids || link == Some(t)
    ensures link.None? <==> m.id.None?
    ensures link.Some? ==> link.value in m.ids && m.id == Some(m.ids[link.value])
    ensures TokenTable(ids, counter) ==> TokenTable(m.ids, m.counter)
  {
    match link
    case None => Minted(ids, counter, None)
    case Some(t) =>
      if t in ids then Minted(ids, counter, Some(ids[t]))
      else
        ParseTokenInverts(counter);
        TokenLength(counter);
        Minted(ids[t := Token(counter)], counter + 1, Some(Token(counter)))
  }

  /** One iteration of the walk on node `x`: resolve `next`, resolve
      `random`, emit the record under the id computed for `x` earlier. */
  function LinStep(h: Heap, x: nat, s: LinState): (r: LinState)
    requires x < |h| && s.curId.Some?
    ensures |r.out| == |s.out| + 1 && r.out[..|s.out|] == s.out
    ensures r.out[|s.out|].id == s.curId.value && r.out[|s.out|].data == h[x].data
    ensures h[x].random.None? <==> r.out[|s.out|].randomId.None?
    ensures h[x].random.Some? ==> h[x].random.value in r.ids && r.out[|s.out|].randomId == Some(r.ids[h[x].random.value])
    ensures h[x].next.None? <==> r.curId.None?
    ensures h[x].next.Some? ==> h[x].next.value in r.ids && r.curId == Some(r.ids[h[x].next.value])
    ensures forall t :: t in s.ids ==> t in r.ids && r.ids[t] == s.ids[t]
    ensures TokenTable(s.ids, s.counter) ==> TokenTable(r.ids, r.counter)
  {
    var n := MintLink(s.ids, s.counter, h[x].next);
    var r := MintLink(n.ids, n.counter, h[x].random);
    LinState(r.ids, r.counter, n.id, s.out + [Record(s.curId.value, r.id, h[x].data)])
  }

  /** The record at chain position `i` carries the table's token for the
      node, the table's token for its `random` target, and its payload. */
  ghost predicate Emitted(h: Heap, chain: seq<nat>, s: LinState, i: nat)
    requires i < |chain| && i < |s.out| && chain[i] < |h|
  {
    && chain[i] in s.ids
    && s.out[i].id == s.ids[chain[i]]
    && s.out[i].data == h[chain[i]].data
    && (h[chain[i]].random.None? ==> s.out[i].randomId.None?)
    && (h[chain[i]].random.Some? ==>
          h[chain[i]].random.value in s.ids && s.out[i].randomId == Some(s.ids[h[chain[i]].random.value]))
  }

  /** The walk's invariant after `k` chain nodes have been emitted. */
  ghost predicate LinInv(h: Heap, chain: seq<nat>, k: nat, s: LinState)
    requires IsChain(h, chain)
  {
    && k <= |chain|
    && |s.out| == k
    && s.counter <= 2 * k + 1
    && TokenTable(s.ids, s.counter)
    && (forall i :: 0 <= i <= k && i < |chain| ==> chain[i] in s.ids)
    && (forall i :: 0 <= i < k ==> Emitted(h, chain, s, i))
    && s.curId == (if k < |chain| then Some(s.ids[chain[k]]) else None)
    && chain[0] in s.ids && s.ids[chain[0]] == Token(0)
  }

  lemma LinStepPreserves(h: Heap, chain: seq<nat>, k: nat, s: LinState)
    requires IsChain(h, chain) && k < |chain|
    requires LinInv(h, chain, k, s)
    ensures LinInv(h, chain, k + 1, LinStep(h, chain[k], s))
  {
    var x := chain[k];
    var n := MintLink(s.ids, s.counter, h[x].next);
    var s' := LinStep(h, x, s);
    assert s'.out[k].id == s.ids[x];
    forall i | 0 <= i < k + 1
      ensures Emitted(h, chain, s', i)
    {
      if i < k {
        assert Emitted(h, chain, s, i);
        assert s'.out[i] == s.out[i];
      }
    }
  }

  /** Walks the forward chain from `node`, the node at chain position `k`. */
  function LinWalk(h: Heap, ghost chain: seq<nat>, k: nat, node: Option<nat>, s: LinState): (r: LinState)
    requires IsChain(h, chain) && k <= |chain| && node == At(chain, k)
    requires LinInv(h, chain, k, s)
    ensures LinInv(h, chain, |chain|, r)
    decreases |chain| - k
  {
    match node
    case None => s
    case Some(x) =>
      LinStepPreserves(h, chain, k, s);
      LinWalk(h, chain, k + 1, h[x].next, LinStep(h, x, s))
  }

  /** `recs` faithfully encodes the chain: one record per chain node in
      chain order, payloads copied, distinct ids, and `RandomId` null exactly
      when `random` is null and otherwise the id of the record of its target. */
  ghost predicate Encodes(h: Heap, chain: seq<nat>, recs: seq<Record>)
  {
    && |recs| == |chain|
    && (forall i :: 0 <= i < |chain| ==> chain[i] < |h|)
    && DistinctIds(recs)
    && (forall k {:trigger recs[k]} :: 0 <= k < |recs| ==> recs[k].data == h[chain[k]].data)
    && (forall k {:trigger recs[k]} :: 0 <= k < |recs| ==> (recs[k].randomId.None? <==> h[chain[k]].random.None?))
    && (forall k, j {:trigger recs[k], recs[j]} :: 0 <= k < |recs| && 0 <= j < |recs| ==>
          (recs[k].randomId == Some(recs[j].id) <==> h[chain[k]].random == Some(chain[j])))
  }

  /** Two chain positions' records name each other exactly as the
      source's `random` links do. */
  lemma EmittedRandom(h: Heap, chain: seq<nat>, s: LinState, k: nat, j: nat)
    requires IsChain(h, chain) && LinInv(h, chain, |chain|, s)
    requires k < |chain| && j < |chain|
    ensures s.out[k].randomId == Some(s.out[j].id) <==> h[chain[k]].random == Some(chain[j])
  {
    assert Emitted(h, chain, s, k) && Emitted(h, chain, s, j);
  }

  /** Distinct chain positions get distinct ids. */
  lemma EmittedDistinct(h: Heap, chain: seq<nat>, s: LinState)
    requires IsChain(h, chain) && LinInv(h, chain, |chain|, s)
    ensures DistinctIds(s.out)
  {
    forall i, j | 0 <= i < |chain| && 0 <= j < |chain| && i != j
      ensures s.out[i].id != s.out[j].id
    {
      assert Emitted(h, chain, s, i) && Emitted(h, chain, s, j);
    }
  }

  lemma LinInvEncodes(h: Heap, chain: seq<nat>, s: LinState)
    requires IsChain(h, chain) && LinInv(h, chain, |chain|, s)
    ensures Encodes(h, chain, s.out)
  {
    EmittedDistinct(h, chain, s);
    forall k | 0 <= k < |chain|
      ensures s.out[k].data == h[chain[k]].data
      ensures s.out[k].randomId.None? <==> h[chain[k]].random.None?
    {
      assert Emitted(h, chain, s, k);
    }
    forall k, j | 0 <= k < |chain| && 0 <= j < |chain|
      ensures s.out[k].randomId == Some(s.out[j].id) <==> h[chain[k]].random == Some(chain[j])
    {
      EmittedRandom(h, chain, s, k, j);
    }
  }

  /** Every emitted token is no longer than the final counter allows. */
  lemma LinInvBounded(h: Heap, chain: seq<nat>, s: LinState)
    requires IsChain(h, chain) && LinInv(h, chain, |chain|, s)
    ensures forall k :: 0 <= k < |s.out| ==> |s.out[k].id| <= 2 * |chain| + 1
    ensures forall k :: 0 <= k < |s.out| && s.out[k].randomId.Some? ==> |s.out[k].randomId.value| <= 2 * |chain| + 1
  {
    forall k | 0 <= k < |s.out|
      ensures |s.out[k].id| <= 2 * |chain| + 1
      ensures s.out[k].randomId.Some? ==> |s.out[k].randomId.value| <= 2 * |chain| + 1
    {
      assert Emitted(h, chain, s, k);
    }
  }

  /** Before the walk only the head has a token, and it is token 0. */
  lemma LinInvInit(h: Heap, head: nat, chain: seq<nat>)
    requires ValidList(h, head, chain)
    ensures LinInv(h, chain, 0, LinState(map[head := Token(0)], 1, Some(Token(0)), []))
  {
    var s0 := LinState(map[head := Token(0)], 1, Some(Token(0)), []);
    ParseTokenInverts(0);
    assert TokenTable(s0.ids, s0.counter);
    assert chain[0] == head;
  }

  /** The linearizer: the head is given token 0 before the walk starts. */
  function Linearize(h: Heap, head: nat, ghost chain: seq<nat>): (recs: seq<Record>)
    requires ValidList(h, head, chain)
    ensures Encodes(h, chain, recs)
    ensures recs[0].id == Token(0)
    ensures forall k :: 0 <= k < |recs| ==> |recs[k].id| <= 2 * |chain| + 1
    ensures forall k :: 0 <= k < |recs| && recs[k].randomId.Some? ==> |recs[k].randomId.value| <= 2 * |chain| + 1
  {
    var s0 := LinState(map[head := Token(0)], 1, Some(Token(0)), []);
    LinInvInit(h, head, chain);
    var s := LinWalk(h, chain, 0, Some(head), s0);
    LinInvEncodes(h, chain, s);
    assert Emitted(h, chain, s, 0);
    LinInvBounded(h, chain, s);
    s.out
  }

  /** On a valid list every emitted `RandomId` names a record of the
      output: a `random` target on the chain is always itself emitted. */
  lemma {:induction false} EncodesResolved(h: Heap, head: nat, chain: seq<nat>, recs: seq<Record>)
    requires ValidList(h, head, chain) && Encodes(h, chain, recs)
    ensures Resolved(recs)
  {
    forall k | 0 <= k < |recs| && recs[k].randomId.Some?
      ensures Defines(recs, recs[k].randomId.value)
    {
      var t := h[chain[k]].random.value;
      var j :| 0 <= j < |chain| && chain[j] == t;
      assert recs[k].randomId == Some(recs[j].id);
    }
  }
}

=== FILE: payload.dfy ===
/** The payload codec for one wire record. The source delegates this to the
    MemoryPack library, whose byte layout is not part of this model; what
    the serializer relies on is that decoding an encoded record gives the
    record back, including the null/non-null distinction of `RandomId` and
    `Data`. This module is a concrete stand-in with that property proved:
    each string is an `int` length (-1 for null) followed by one `int` per
    character. */
module Payload {
  import opened Wrappers
  import opened Bytes
  import opened Wire

  /** Why reading a stream fails. */
  datatype StreamError =
    | Truncated        // the stream ends inside a length prefix or a payload
    | NegativeLength   // a length prefix below zero (`new byte[n]` throws)
    | MalformedPayload // a payload the codec cannot read back

  /** The longest total string length a record may carry, so that its
      encoding stays below the 2^31 bytes a length prefix can express. */
  const MaxRecordChars: int := 0x1000_0000

  function OptLength(o: Option<string>): nat
  {
    if o.Some? then |o.value| else 0
  }

  /** The record's three strings are short enough to be encoded. */
  predicate RecordFits(r: Record)
  {
    |r.id| + OptLength(r.randomId) + OptLength(r.data) < MaxRecordChars
  }

  /** `c` is a Unicode scalar value, i.e. the code of some `char`. */
  predicate IsScalar(c: int)
  {
    (0 <= c < 0xD800) || (0xE000 <= c < 0x11_0000)
  }

  function EncodeChars(s: string): (bs: seq<byte>)
    ensures |bs| == 4 * |s|
  {
    if |s| == 0 then [] else Int32Bytes(s[0] as int) + EncodeChars(s[1..])
  }

  function EncodeOptString(o: Option<string>): (bs: seq<byte>)
    requires OptLength(o) < MaxRecordChars
    ensures |bs| == 4 + 4 * OptLength(o)
  {
    match o
    case None => Int32Bytes(-1)
    case Some(s) => Int32Bytes(|s|) + EncodeChars(s)
  }

  /** The payload bytes of one record (`MemoryPackSerializer.Serialize`). */
  function EncodeRecord(r: Record): (bs: seq<byte>)
    requires RecordFits(r)
    ensures |bs| < 0x8000_0000
  {
    EncodeOptString(Some(r.id)) + EncodeOptString(r.randomId) + EncodeOptString(r.data)
  }

  /** Reads `n` characters; fails when the bytes run out or one of them is
      not a character code. */
  function DecodeChars(bs: seq<byte>, n: nat): (r: Result<(string, seq<byte>), StreamError>)
    ensures r.Success? ==> |r.value.0| == n && |r.value.1| == |bs| - 4 * n
    decreases n
  {
    if n == 0 then Success(([], bs))
    else if |bs| < 4 then Failure(MalformedPayload)
    else
      var c := ReadInt32(bs);
      if !IsScalar(c) then Failure(MalformedPayload)
      else match DecodeChars(bs[4..], n - 1)
        case Failure(e) => Failure(e)
        case Success((s, rest)) => Success(([c as char] + s, rest))
  }

  /** Reads one string or null. */
  function DecodeOptString(bs: seq<byte>): (r: Result<(Option<string>, seq<byte>), StreamError>)
    ensures |bs| < 4 ==> r.Failure?
    ensures r.Success? ==> |r.value.1| == |bs| - 4 - 4 * OptLength(r.value.0)
  {
    if |bs| < 4 then Failure(MalformedPayload)
    else
      var n := ReadInt32(bs);
      if n == -1 then Success((None, bs[4..]))
      else if n < 0 then Failure(MalformedPayload)
      else match DecodeChars(bs[4..], n)
        case Failure(e) => Failure(e)
        case Success((s, rest)) => Success((Some(s), rest))
  }

  /** Reads one record (`MemoryPackSerializer.Deserialize`): a non-null
      `Id`, then `RandomId` and `Data`, with no bytes left over. */
  function DecodeRecord(bs: seq<byte>): (r: Result<Record, StreamError>)
    ensures r.Success? ==> |bs| == 12 + 4 * (|r.value.id| + OptLength(r.value.randomId) + OptLength(r.value.data))
    ensures DecodeOptString(bs).Success? && DecodeOptString(bs).value.0.None? ==> r == Failure(MalformedPayload)
    ensures r.Success? ==> DecodeOptString(bs).Success? && DecodeOptString(bs).value.0 == Some(r.value.id)
  {
    match DecodeOptString(bs)
    case Failure(e) => Failure(e)
    case Success((id, rest1)) =>
      if id.None? then Failure(MalformedPayload)
      else match DecodeOptString(rest1)
        case Failure(e) => Failure(e)
        case Success((randomId, rest2)) =>
          match DecodeOptString(rest2)
          case Failure(e) => Failure(e)
          case Success((data, rest3)) =>
            if |rest3| != 0 then Failure(MalformedPayload)
            else Success(Record(id.value, randomId, data))
  }

  lemma {:induction false} DecodeCharsRoundTrip(s: string, rest: seq<byte>)
    ensures DecodeChars(EncodeChars(s) + rest, |s|) == Success((s, rest))
  {
    if |s| > 0 {
      var bs := EncodeChars(s) + rest;
      Int32RoundTrip(s[0] as int, EncodeChars(s[1..]) + rest);
      assert bs == Int32Bytes(s[0] as int) + (EncodeChars(s[1..]) + rest);
      assert bs[4..] == EncodeChars(s[1..]) + rest;
      DecodeCharsRoundTrip(s[1..], rest);
      assert IsScalar(s[0] as int);
      assert (s[0] as int) as char == s[0];
      assert [s[0]] + s[1..] == s;
      assert ReadInt32(bs) == s[0] as int;
      assert DecodeChars(bs[4..], |s| - 1) == Success((s[1..], rest));
    } else {
      assert EncodeChars(s) + rest == rest;
    }
  }

  lemma DecodeOptStringRoundTrip(o: Option<string>, rest: seq<byte>)
    requires OptLength(o) < MaxRecordChars
    ensures DecodeOptString(EncodeOptString(o) + rest) == Success((o, rest))
  {
    match o
    case None =>
      Int32RoundTrip(-1, rest);
      assert (Int32Bytes(-1) + rest)[4..] == rest;
    case Some(s) =>
      var bs := EncodeOptString(o) + rest;
      Int32RoundTrip(|s|, EncodeChars(s) + rest);
      assert bs == Int32Bytes(|s|) + (EncodeChars(s) + rest);
      assert bs[4..] == EncodeChars(s) + rest;
      DecodeCharsRoundTrip(s, rest);
  }

  /** Decoding an encoded record gives the same record back. */
  lemma RecordRoundTrip(r: Record)
    requires RecordFits(r)
    ensures DecodeRecord(EncodeRecord(r)) == Success(r)
  {
    var a := EncodeOptString(Some(r.id));
    var b := EncodeOptString(r.randomId);
    var c := EncodeOptString(r.data);
    assert EncodeRecord(r) == a + (b + (c + []));
    DecodeOptStringRoundTrip(Some(r.id), b + (c + []));
    DecodeOptStringRoundTrip(r.randomId, c + []);
    DecodeOptStringRoundTrip(r.data, []);
  }

  /** Characters that decode were written by `EncodeChars`: the bytes
      consumed are exactly the encoding of the string read. */
  lemma {:induction false} DecodeCharsExact(bs: seq<byte>, n: nat)
    requires DecodeChars(bs, n).Success?
    ensures bs == EncodeChars(DecodeChars(bs, n).value.0) + DecodeChars(bs, n).value.1
    decreases n
  {
    if n > 0 {
      var c := ReadInt32(bs);
      var (t, rest) := DecodeChars(bs[4..], n - 1).value;
      DecodeCharsExact(bs[4..], n - 1);
      ReadInt32Inverts(bs);
      var s := [c as char] + t;
      assert DecodeChars(bs, n).value.0 == s;
      assert s[0] as int == c && s[1..] == t;
      assert bs == bs[..4] + bs[4..];
    }
  }

  /** A nullable string that decodes was written by `EncodeOptString`. */
  lemma DecodeOptStringExact(bs: seq<byte>)
    requires DecodeOptString(bs).Success?
    requires OptLength(DecodeOptString(bs).value.0) < MaxRecordChars
    ensures bs == EncodeOptString(DecodeOptString(bs).value.0) + DecodeOptString(bs).value.1
  {
    ReadInt32Inverts(bs);
    assert bs == bs[..4] + bs[4..];
    if ReadInt32(bs) != -1 {
      DecodeCharsExact(bs[4..], ReadInt32(bs));
    }
  }

  /** The other half of the round trip: a payload that decodes to a record
      is exactly that record's encoding, so the codec has one encoding per
      record and accepts nothing else. */
  lemma DecodeRecordCanonical(bs: seq<byte>)
    requires DecodeRecord(bs).Success? && RecordFits(DecodeRecord(bs).value)
    ensures EncodeRecord(DecodeRecord(bs).value) == bs
  {
    var (id, rest1) := DecodeOptString(bs).value;
    var (randomId, rest2) := DecodeOptString(rest1).value;
    var (data, rest3) := DecodeOptString(rest2).value;
    var r := DecodeRecord(bs).value;
    assert r == Record(id.value, randomId, data);
    DecodeOptStringExact(rest2);
    assert rest2 == EncodeOptString(data) by { assert rest3 == []; }
    DecodeOptStringExact(rest1);
    DecodeOptStringExact(bs);
    assert bs == EncodeOptString(id) + (EncodeOptString(randomId) + EncodeOptString(data));
  }
}

=== FILE: reconstructor.dfy ===
/** The reconstructing `Map(IAsyncEnumerable<ListNode>)`: consumes wire
    records strictly in order and rebuilds `Next`, `Previous` and `Random`,
    creating a placeholder node for a `RandomId` not seen yet and filling
    that same node in place when the record defining it arrives. */
module Reconstructor {
  import opened Wrappers
  import opened Arena
  import opened Wire

  /** The table `listNodeById`, the heap, the previously processed node
      `prev` and the fresh node `current` awaiting the next record. */
  datatype Builder = Builder(heap: Heap, nodeOf: map<string, nat>, prev: Option<nat>, current: nat)

  /** The returned list: the heap after the call, the head node, and the
      final id-to-node table. */
  datatype Rebuilt = Rebuilt(heap: Heap, head: nat, nodeOf: map<string, nat>)

  /** Every reference the builder holds is a node of its heap. */
  ghost predicate Sane(b: Builder)
  {
    && b.current < |b.heap|
    && (forall id :: id in b.nodeOf ==> b.nodeOf[id] < |b.heap|)
    && (b.prev.Some? ==> b.prev.value < |b.heap|)
  }

  /** Before the first record: one fresh head node, an empty table. */
  const Start: Builder := Builder([Blank], map[], None, 0)

  /** The table once `rec.id` is known: unchanged if it already names a
      node (a placeholder), otherwise extended with the fresh `current`. */
  function Register(b: Builder, rec: Record): map<string, nat>
  {
    if rec.id in b.nodeOf then b.nodeOf else b.nodeOf[rec.id := b.current]
  }

  /** The node a step works on: the one registered for `rec.id`, or the
      fresh `current`. */
  function StepNode(b: Builder, rec: Record): nat
  {
    if rec.id in b.nodeOf then b.nodeOf[rec.id] else b.current
  }

  /** One record: reuse the node already registered for `Id` (a
      placeholder) or register the fresh `current`; set `Data` and
      `Previous`; link the prior node's `Next`; resolve `RandomId`; then
      allocate a new `current`. */
  function RebuildStep(b: Builder, rec: Record): (b': Builder)
    requires Sane(b)
    ensures Sane(b')
    ensures |b'.heap| > |b.heap| && b'.heap[b'.current] == Blank
    ensures b'.current == |b'.heap| - 1 && b'.current >= |b.heap|
    ensures forall id :: id in b.nodeOf ==> id in b'.nodeOf && b'.nodeOf[id] == b.nodeOf[id]
    ensures rec.id in b'.nodeOf && b'.nodeOf[rec.id] == StepNode(b, rec)
    ensures b'.prev == Some(StepNode(b, rec))
  {
    var nodeOf1 := Register(b, rec);
    var cur := StepNode(b, rec);
    var heap1 := b.heap[cur := b.heap[cur].(data := rec.data, previous := b.prev)];
    var heap2 := if b.prev.Some? then heap1[b.prev.value := heap1[b.prev.value].(next := Some(cur))] else heap1;
    var r := LinkField(heap2, nodeOf1, cur, rec.randomId, false);
    Builder(r.heap + [Blank], r.table, Some(cur), |r.heap|)
  }

  /** Processes `recs[i..]` in order. */
  function RebuildWalk(recs: seq<Record>, i: nat, b: Builder): (r: Builder)
    requires i <= |recs| && Sane(b)
    ensures Sane(r)
    ensures |r.heap| >= |b.heap| + (|recs| - i)
    ensures forall id :: id in b.nodeOf ==> id in r.nodeOf && r.nodeOf[id] == b.nodeOf[id]
    decreases |recs| - i
  {
    if i == |recs| then b else RebuildWalk(recs, i + 1, RebuildStep(b, recs[i]))
  }

  /** The walk registers the id of every record it processes. */
  lemma {:induction false} RebuildWalkRegisters(recs: seq<Record>, i: nat, b: Builder)
    requires i <= |recs| && Sane(b)
    ensures forall k :: i <= k < |recs| ==> recs[k].id in RebuildWalk(recs, i, b).nodeOf
    decreases |recs| - i
  {
    if i < |recs| {
      var b' := RebuildStep(b, recs[i]);
      var r := RebuildWalk(recs, i + 1, b');
      assert RebuildWalk(recs, i, b) == r;
      RebuildWalkRegisters(recs, i + 1, b');
      assert recs[i].id in b'.nodeOf;
      forall k | i <= k < |recs|
        ensures recs[k].id in r.nodeOf
      {
        if k == i {
          assert recs[i].id in b'.nodeOf;
        }
      }
    }
  }

  /** The node `nodes[k]` of record `k` is completely built, as far as the
      first `|nodes|` records determine it. */
  ghost predicate Built(recs: seq<Record>, b: Builder, nodes: seq<nat>, k: nat)
    requires k < |nodes| <= |recs|
    requires forall x :: 0 <= x < |nodes| ==> nodes[x] < |b.heap|
  {
    && b.heap[nodes[k]].data == recs[k].data
    && b.heap[nodes[k]].previous == Before(nodes, k)
    && b.heap[nodes[k]].next == At(nodes, k + 1)
    && Maps(b.nodeOf, recs[k].randomId, b.heap[nodes[k]].random)
  }

  /** The invariant after the first `i` records, whose nodes are `nodes`:
      the table is injective, each processed record's id maps to its node,
      each such node is built, every other node of the heap is still blank,
      `prev` is the last built node and `current` is unregistered. */
  ghost predicate RebuildInv(recs: seq<Record>, i: nat, b: Builder, nodes: seq<nat>)
  {
    && i <= |recs|
    && |nodes| == i
    && Sane(b)
    && FreshTable(b.heap, b.nodeOf, 0)
    && (forall k :: 0 <= k < i ==> recs[k].id in b.nodeOf && b.nodeOf[recs[k].id] == nodes[k])
    && (forall k :: 0 <= k < i ==> nodes[k] < |b.heap|)
    && (forall k :: 0 <= k < i ==> Built(recs, b, nodes, k))
    && (forall x :: 0 <= x < |b.heap| && x !in nodes ==> b.heap[x] == Blank)
    && b.prev == (if i == 0 then None else Some(nodes[i - 1]))
    && (forall id :: id in b.nodeOf ==> b.nodeOf[id] != b.current)
    && (i == 0 ==> b.current == 0 && b.nodeOf == map[])
    && (i > 0 ==> nodes[0] == 0)
  }

  /** A step changes no existing node other than its own node and the
      prior node, and every node it allocates is blank. */
  lemma RebuildStepFrame(b: Builder, rec: Record)
    requires Sane(b)
    ensures var b' := RebuildStep(b, rec); var cur := StepNode(b, rec);
      && |b'.heap| > |b.heap|
      && (forall i :: 0 <= i < |b.heap| && i != cur && b.prev != Some(i) ==> b'.heap[i] == b.heap[i])
      && (forall i :: |b.heap| <= i < |b'.heap| ==> b'.heap[i] == Blank)
      && (b.prev.Some? && b.prev.value != cur ==> b'.heap[b.prev.value] == b.heap[b.prev.value].(next := Some(cur)))
      && b'.current == |b'.heap| - 1
      && b'.prev == Some(cur)
  {
  }

  /** A step fills its own node: payload, back link, the resolved
      `RandomId`, and (unless it is also the prior node) its `next` is
      left as it was. */
  lemma RebuildStepNode(b: Builder, rec: Record)
    requires Sane(b) && b.prev != Some(StepNode(b, rec))
    ensures var b' := RebuildStep(b, rec); var cur := StepNode(b, rec);
      && b'.heap[cur].data == rec.data
      && b'.heap[cur].previous == b.prev
      && b'.heap[cur].next == b.heap[cur].next
      && (rec.randomId.None? ==> b'.heap[cur].random == b.heap[cur].random)
      && (rec.randomId.Some? ==> Maps(b'.nodeOf, rec.randomId, b'.heap[cur].random))
  {
  }

  /** Registering `rec.id` keeps the table fresh and injective as long
      as `current` was unregistered. */
  lemma RegisterFresh(b: Builder, rec: Record)
    requires Sane(b)
    requires forall id :: id in b.nodeOf ==> b.nodeOf[id] != b.current
    requires FreshTable(b.heap, b.nodeOf, 0)
    ensures FreshTable(b.heap, Register(b, rec), 0)
    ensures rec.id in Register(b, rec) && Register(b, rec)[rec.id] == StepNode(b, rec)
    ensures forall id :: id in b.nodeOf ==> id in Register(b, rec) && Register(b, rec)[id] == b.nodeOf[id]
    ensures forall id :: id in Register(b, rec) ==> id in b.nodeOf || id == rec.id
  {
  }

  /** A step registers `rec.id` (at the fresh `current` unless already
      known), otherwise only adds entries for newly allocated nodes, and
      keeps the table injective as long as `current` was unregistered. */
  lemma RebuildStepTable(b: Builder, rec: Record)
    requires Sane(b)
    requires forall id :: id in b.nodeOf ==> b.nodeOf[id] != b.current
    requires FreshTable(b.heap, b.nodeOf, 0)
    ensures var b' := RebuildStep(b, rec);
      && (forall id :: id in b.nodeOf ==> id in b'.nodeOf && b'.nodeOf[id] == b.nodeOf[id])
      && rec.id in b'.nodeOf && b'.nodeOf[rec.id] == StepNode(b, rec)
      && (forall id :: id in b'.nodeOf && id !in b.nodeOf && id != rec.id ==> b'.nodeOf[id] >= |b.heap|)
      && FreshTable(b'.heap, b'.nodeOf, 0)
      && (forall id :: id in b'.nodeOf ==> b'.nodeOf[id] != b'.current)
  {
    var cur := StepNode(b, rec);
    var nodeOf1 := Register(b, rec);
    var heap1 := b.heap[cur := b.heap[cur].(data := rec.data, previous := b.prev)];
    var heap2 := if b.prev.Some? then heap1[b.prev.value := heap1[b.prev.value].(next := Some(cur))] else heap1;
    RegisterFresh(b, rec);
    LinkFieldFresh(heap2, nodeOf1, cur, rec.randomId, false, 0);
  }

  /** The node a step works on is not yet built, hence still blank. */
  lemma StepNodeIsFresh(recs: seq<Record>, i: nat, b: Builder, nodes: seq<nat>)
    requires DistinctIds(recs) && i < |recs| && RebuildInv(recs, i, b, nodes)
    ensures StepNode(b, recs[i]) < |b.heap|
    ensures StepNode(b, recs[i]) !in nodes
    ensures b.heap[StepNode(b, recs[i])] == Blank
  {
    var id := recs[i].id;
    forall k | 0 <= k < i
      ensures nodes[k] != StepNode(b, recs[i])
    {
      assert recs[k].id != id;
    }
  }

  /** `Built` survives a change of builder that keeps node `nodes[k]`
      (giving it `next == cur` when it is the last node) and only grows the
      table. */
  lemma BuiltAfterStep(recs: seq<Record>, b: Builder, b': Builder, nodes: seq<nat>, cur: nat, k: nat)
    requires k < |nodes| < |recs|
    requires forall x :: 0 <= x < |nodes| ==> nodes[x] < |b.heap|
    requires |b'.heap| >= |b.heap| && cur < |b'.heap|
    requires Built(recs, b, nodes, k)
    requires b'.heap[nodes[k]] == (if k + 1 == |nodes| then b.heap[nodes[k]].(next := Some(cur)) else b.heap[nodes[k]])
    requires forall id :: id in b.nodeOf ==> id in b'.nodeOf && b'.nodeOf[id] == b.nodeOf[id]
    ensures forall x :: 0 <= x < |nodes| + 1 ==> (nodes + [cur])[x] < |b'.heap|
    ensures Built(recs, b', nodes + [cur], k)
  {
    var nodes' := nodes + [cur];
    forall y | 0 <= y < |nodes| + 1
      ensures nodes'[y] < |b'.heap|
    {
      if y < |nodes| {
        assert nodes'[y] == nodes[y];
      }
    }
    if k + 1 < |nodes| {
      assert At(nodes', k + 1) == At(nodes, k + 1);
    }
    if k > 0 {
      assert nodes'[k - 1] == nodes[k - 1];
    }
  }

  /** The nodes of distinct records are distinct. */
  lemma RebuildInvDistinct(recs: seq<Record>, i: nat, b: Builder, nodes: seq<nat>)
    requires DistinctIds(recs) && RebuildInv(recs, i, b, nodes)
    ensures Distinct(nodes)
  {
    forall k, j | 0 <= k < |nodes| && 0 <= j < |nodes| && k != j
      ensures nodes[k] != nodes[j]
    {
      assert recs[k].id != recs[j].id;
    }
  }

  /** If a heap changes only at `cur`, which is off `nodes`, and at the
      last node of `nodes`, which gains `next == cur`, then every other
      node of `nodes` is unchanged. */
  lemma KeepsOldNodes(heap: Heap, heap': Heap, prev: Option<nat>, cur: nat, nodes: seq<nat>)
    requires Distinct(nodes) && cur !in nodes
    requires forall k :: 0 <= k < |nodes| ==> nodes[k] < |heap|
    requires |heap'| >= |heap|
    requires prev == (if |nodes| == 0 then None else Some(nodes[|nodes| - 1]))
    requires forall x :: 0 <= x < |heap| && x != cur && prev != Some(x) ==> heap'[x] == heap[x]
    requires prev.Some? ==> heap'[prev.value] == heap[prev.value].(next := Some(cur))
    ensures forall k :: 0 <= k < |nodes| ==>
      heap'[nodes[k]] == (if k + 1 == |nodes| then heap[nodes[k]].(next := Some(cur)) else heap[nodes[k]])
  {
    forall k | 0 <= k < |nodes|
      ensures heap'[nodes[k]] == (if k + 1 == |nodes| then heap[nodes[k]].(next := Some(cur)) else heap[nodes[k]])
    {
      assert prev == Some(nodes[k]) <==> k + 1 == |nodes|;
    }
  }

  /** A step leaves every earlier node as it was, except that the last
      one gains its `next`. */
  lemma RebuildStepOldNodes(b: Builder, rec: Record, nodes: seq<nat>)
    requires Sane(b) && Distinct(nodes)
    requires forall k :: 0 <= k < |nodes| ==> nodes[k] < |b.heap|
    requires StepNode(b, rec) !in nodes
    requires b.prev == (if |nodes| == 0 then None else Some(nodes[|nodes| - 1]))
    ensures var b' := RebuildStep(b, rec); var cur := StepNode(b, rec);
      forall k :: 0 <= k < |nodes| ==>
        b'.heap[nodes[k]] == (if k + 1 == |nodes| then b.heap[nodes[k]].(next := Some(cur)) else b.heap[nodes[k]])
  {
    RebuildStepFrame(b, rec);
    KeepsOldNodes(b.heap, RebuildStep(b, rec).heap, b.prev, StepNode(b, rec), nodes);
  }

  /** A node built earlier stays built; the prior node gains its `next`. */
  lemma RebuildStepKeepsBuilt(recs: seq<Record>, i: nat, b: Builder, nodes: seq<nat>, k: nat)
    requires DistinctIds(recs) && i < |recs| && RebuildInv(recs, i, b, nodes) && k < i
    ensures var b' := RebuildStep(b, recs[i]); var nodes' := nodes + [StepNode(b, recs[i])];
      && (forall x :: 0 <= x < i + 1 ==> nodes'[x] < |b'.heap|)
      && Built(recs, b', nodes', k)
  {
    var rec := recs[i];
    StepNodeIsFresh(recs, i, b, nodes);
    RebuildInvDistinct(recs, i, b, nodes);
    RebuildStepOldNodes(b, rec, nodes);
    RebuildStepTable(b, rec);
    assert Built(recs, b, nodes, k);
    BuiltAfterStep(recs, b, RebuildStep(b, rec), nodes, StepNode(b, rec), k);
  }

  /** The step's own node is built once the step is done. */
  lemma RebuildStepBuildsNew(recs: seq<Record>, i: nat, b: Builder, nodes: seq<nat>)
    requires DistinctIds(recs) && i < |recs| && RebuildInv(recs, i, b, nodes)
    ensures var b' := RebuildStep(b, recs[i]); var nodes' := nodes + [StepNode(b, recs[i])];
      && (forall k :: 0 <= k < i + 1 ==> nodes'[k] < |b'.heap|)
      && Built(recs, b', nodes', i)
  {
    var rec := recs[i];
    var b' := RebuildStep(b, rec);
    var cur := StepNode(b, rec);
    var nodes' := nodes + [cur];
    StepNodeIsFresh(recs, i, b, nodes);
    RebuildStepFrame(b, rec);
    RebuildStepNode(b, rec);
    assert b.heap[cur] == Blank;
    BuiltLast(recs, i, b', nodes, cur);
  }

  /** A node holding `recs[i]`'s data, linked back to the last of `nodes`,
      with no `next` and its `Random` mapped through the table, is built as
      position `i` of `nodes + [cur]`. */
  lemma BuiltLast(recs: seq<Record>, i: nat, b: Builder, nodes: seq<nat>, cur: nat)
    requires i < |recs| && |nodes| == i && cur < |b.heap|
    requires forall k :: 0 <= k < i ==> nodes[k] < |b.heap|
    requires b.heap[cur].data == recs[i].data
    requires b.heap[cur].previous == (if i == 0 then None else Some(nodes[i - 1]))
    requires b.heap[cur].next == None
    requires Maps(b.nodeOf, recs[i].randomId, b.heap[cur].random)
    ensures forall k :: 0 <= k < i + 1 ==> (nodes + [cur])[k] < |b.heap|
    ensures Built(recs, b, nodes + [cur], i)
  {
    var nodes' := nodes + [cur];
    forall k | 0 <= k < i + 1
      ensures nodes'[k] < |b.heap|
    {
      if k < i {
        assert nodes'[k] == nodes[k];
      }
    }
    assert nodes'[i] == cur && At(nodes', i + 1) == None;
    if i > 0 {
      assert nodes'[i - 1] == nodes[i - 1];
    }
  }

  lemma RebuildStepBuilds(recs: seq<Record>, i: nat, b: Builder, nodes: seq<nat>)
    requires DistinctIds(recs) && i < |recs| && RebuildInv(recs, i, b, nodes)
    ensures var b' := RebuildStep(b, recs[i]); var nodes' := nodes + [StepNode(b, recs[i])];
      && (forall k :: 0 <= k < i + 1 ==> nodes'[k] < |b'.heap|)
      && (forall k :: 0 <= k < i + 1 ==> Built(recs, b', nodes', k))
  {
    var b' := RebuildStep(b, recs[i]);
    var nodes' := nodes + [StepNode(b, recs[i])];
    RebuildStepBuildsNew(recs, i, b, nodes);
    forall k | 0 <= k < i
      ensures Built(recs, b', nodes', k)
    {
      RebuildStepKeepsBuilt(recs, i, b, nodes, k);
    }
  }

  lemma RebuildStepBlanks(recs: seq<Record>, i: nat, b: Builder, nodes: seq<nat>)
    requires DistinctIds(recs) && i < |recs| && RebuildInv(recs, i, b, nodes)
    ensures var b' := RebuildStep(b, recs[i]); var nodes' := nodes + [StepNode(b, recs[i])];
      forall x :: 0 <= x < |b'.heap| && x !in nodes' ==> b'.heap[x] == Blank
  {
    var rec := recs[i];
    var b' := RebuildStep(b, rec);
    var nodes' := nodes + [StepNode(b, rec)];
    RebuildStepFrame(b, rec);
    forall x | 0 <= x < |b'.heap| && x !in nodes'
      ensures b'.heap[x] == Blank
    {
      if x < |b.heap| {
        assert x !in nodes;
        if i > 0 {
          assert nodes[i - 1] in nodes;
        }
      }
    }
  }

  /** After a step, each processed record's id still maps to its node. */
  lemma RebuildStepIds(recs: seq<Record>, i: nat, b: Builder, nodes: seq<nat>)
    requires DistinctIds(recs) && i < |recs| && RebuildInv(recs, i, b, nodes)
    ensures var b' := RebuildStep(b, recs[i]); var nodes' := nodes + [StepNode(b, recs[i])];
      forall k :: 0 <= k < i + 1 ==> recs[k].id in b'.nodeOf && b'.nodeOf[recs[k].id] == nodes'[k]
  {
    RebuildStepTable(b, recs[i]);
    KeepsOldIds(recs, i, b.nodeOf, RebuildStep(b, recs[i]).nodeOf, nodes, StepNode(b, recs[i]));
  }

  /** A table that keeps every old entry and maps `recs[i].id` to `n`
      maps the first `i + 1` ids to `nodes + [n]`. */
  lemma KeepsOldIds(recs: seq<Record>, i: nat, nodeOf: map<string, nat>, nodeOf': map<string, nat>,
                    nodes: seq<nat>, n: nat)
    requires i < |recs| && |nodes| == i
    requires forall k :: 0 <= k < i ==> recs[k].id in nodeOf && nodeOf[recs[k].id] == nodes[k]
    requires forall id :: id in nodeOf ==> id in nodeOf' && nodeOf'[id] == nodeOf[id]
    requires recs[i].id in nodeOf' && nodeOf'[recs[i].id] == n
    ensures forall k :: 0 <= k < i + 1 ==> recs[k].id in nodeOf' && nodeOf'[recs[k].id] == (nodes + [n])[k]
  {
    forall k | 0 <= k < i + 1
      ensures recs[k].id in nodeOf' && nodeOf'[recs[k].id] == (nodes + [n])[k]
    {
      if k < i {
        assert (nodes + [n])[k] == nodes[k];
      }
    }
  }

  lemma RebuildStepPreserves(recs: seq<Record>, i: nat, b: Builder, nodes: seq<nat>)
    requires DistinctIds(recs) && i < |recs| && RebuildInv(recs, i, b, nodes)
    ensures RebuildInv(recs, i + 1, RebuildStep(b, recs[i]), nodes + [StepNode(b, recs[i])])
  {
    var rec := recs[i];
    var b' := RebuildStep(b, rec);
    var nodes' := nodes + [StepNode(b, rec)];
    RebuildStepTable(b, rec);
    RebuildStepIds(recs, i, b, nodes);
    RebuildStepBuilds(recs, i, b, nodes);
    RebuildStepBlanks(recs, i, b, nodes);
    assert b'.prev == Some(nodes'[i]);
    if i == 0 {
      assert nodes'[0] == StepNode(b, rec) == 0;
    } else {
      assert nodes'[0] == nodes[0];
    }
  }

  lemma {:induction false} RebuildWalkPreserves(recs: seq<Record>, i: nat, b: Builder, nodes: seq<nat>)
      returns (nodes': seq<nat>)
    requires DistinctIds(recs) && i <= |recs| && RebuildInv(recs, i, b, nodes)
    ensures RebuildInv(recs, |recs|, RebuildWalk(recs, i, b), nodes')
    decreases |recs| - i
  {
    if i == |recs| {
      nodes' := nodes;
    } else {
      RebuildStepPreserves(recs, i, b, nodes);
      nodes' := RebuildWalkPreserves(recs, i + 1, RebuildStep(b, recs[i]), nodes + [StepNode(b, recs[i])]);
    }
  }

  /** `nodes` in `heap` is what `recs` describe: one node per record in
      record order, well linked with `previous` the reverse of `next`, the
      payloads of the records, a null `random` exactly for a null
      `RandomId`, a `RandomId` naming record `j` resolved to `nodes[j]`, and
      a `RandomId` that no record defines resolved to a payload-less
      placeholder outside the chain. */
  ghost predicate Builds(recs: seq<Record>, heap: Heap, nodes: seq<nat>)
  {
    && |nodes| == |recs|
    && Shape(heap, nodes)
    && (forall k :: 0 <= k < |recs| ==> heap[nodes[k]].data == recs[k].data)
    && (forall k :: 0 <= k < |recs| ==> (recs[k].randomId.None? <==> heap[nodes[k]].random.None?))
    && (forall k, j :: 0 <= k < |recs| && 0 <= j < |recs| && recs[k].randomId == Some(recs[j].id) ==>
          heap[nodes[k]].random == Some(nodes[j]))
    && (forall k :: 0 <= k < |recs| && recs[k].randomId.Some? && !Defines(recs, recs[k].randomId.value) ==>
          && heap[nodes[k]].random.Some?
          && heap[nodes[k]].random.value < |heap|
          && heap[nodes[k]].random.value !in nodes
          && heap[heap[nodes[k]].random.value].data.None?)
  }

  lemma RebuildInvShape(recs: seq<Record>, b: Builder, nodes: seq<nat>)
    requires DistinctIds(recs) && RebuildInv(recs, |recs|, b, nodes)
    ensures Shape(b.heap, nodes)
    ensures forall k :: 0 <= k < |recs| ==> b.heap[nodes[k]].data == recs[k].data
    ensures forall k :: 0 <= k < |recs| ==> Maps(b.nodeOf, recs[k].randomId, b.heap[nodes[k]].random)
  {
    assert Distinct(nodes) by {
      forall k, j | 0 <= k < |nodes| && 0 <= j < |nodes| && k != j
        ensures nodes[k] != nodes[j]
      {
        assert recs[k].id != recs[j].id;
      }
    }
    forall k | 0 <= k < |recs|
      ensures b.heap[nodes[k]].next == At(nodes, k + 1)
      ensures b.heap[nodes[k]].previous == Before(nodes, k)
      ensures b.heap[nodes[k]].data == recs[k].data
      ensures Maps(b.nodeOf, recs[k].randomId, b.heap[nodes[k]].random)
    {
      assert Built(recs, b, nodes, k);
    }
  }

  /** A `RandomId` no record defines resolves to a blank placeholder that
      is not on the chain. */
  lemma RebuildInvDangling(recs: seq<Record>, b: Builder, nodes: seq<nat>, k: nat)
    requires DistinctIds(recs) && RebuildInv(recs, |recs|, b, nodes)
    requires k < |recs| && recs[k].randomId.Some? && !Defines(recs, recs[k].randomId.value)
    requires Maps(b.nodeOf, recs[k].randomId, b.heap[nodes[k]].random)
    ensures b.heap[nodes[k]].random.Some? && b.heap[nodes[k]].random.value < |b.heap|
    ensures b.heap[nodes[k]].random.value !in nodes
    ensures b.heap[b.heap[nodes[k]].random.value].data.None?
  {
    var r := recs[k].randomId.value;
    forall j | 0 <= j < |nodes|
      ensures nodes[j] != b.nodeOf[r]
    {
      assert recs[j].id != r;
    }
  }

  lemma RebuildInvBuilds(recs: seq<Record>, b: Builder, nodes: seq<nat>)
    requires DistinctIds(recs) && RebuildInv(recs, |recs|, b, nodes)
    ensures forall k :: 0 <= k < |recs| ==> recs[k].id in b.nodeOf
    ensures nodes == Image(b.nodeOf, Ids(recs))
    ensures Builds(recs, b.heap, nodes)
  {
    RebuildInvShape(recs, b, nodes);
    forall k | 0 <= k < |recs| && recs[k].randomId.Some? && !Defines(recs, recs[k].randomId.value)
      ensures b.heap[nodes[k]].random.Some? && b.heap[nodes[k]].random.value < |b.heap|
      ensures b.heap[nodes[k]].random.value !in nodes
      ensures b.heap[b.heap[nodes[k]].random.value].data.None?
    {
      RebuildInvDangling(recs, b, nodes, k);
    }
  }

  /** Processing every record from the start establishes `Builds` for a
      sequence with distinct ids. */
  lemma RebuildWalkBuilds(recs: seq<Record>)
    ensures var b := RebuildWalk(recs, 0, Start);
      DistinctIds(recs) ==>
        && (forall k :: 0 <= k < |recs| ==> recs[k].id in b.nodeOf)
        && Builds(recs, b.heap, Image(b.nodeOf, Ids(recs)))
        && (|recs| > 0 ==> Image(b.nodeOf, Ids(recs))[0] == 0)
  {
    if DistinctIds(recs) {
      assert RebuildInv(recs, 0, Start, []);
      var nodes := RebuildWalkPreserves(recs, 0, Start, []);
      RebuildInvBuilds(recs, RebuildWalk(recs, 0, Start), nodes);
    }
  }

  /** The reconstructor. The head is the node allocated before the first
      record, so on an empty sequence it is a fresh node with null `Data`;
      otherwise it is the first record's node. For records with distinct
      ids the result is exactly what the records describe. */
  function Reconstruct(recs: seq<Record>): (r: Rebuilt)
    ensures r.head < |r.heap|
    ensures |recs| == 0 ==> r.heap[r.head] == Blank
    ensures DistinctIds(recs) ==>
      && (forall k :: 0 <= k < |recs| ==> recs[k].id in r.nodeOf)
      && Builds(recs, r.heap, Image(r.nodeOf, Ids(recs)))
      && (|recs| > 0 ==> Image(r.nodeOf, Ids(recs))[0] == r.head)
  {
    var b := RebuildWalk(recs, 0, Start);
    RebuildWalkBuilds(recs);
    Rebuilt(b.heap, 0, b.nodeOf)
  }
}

=== FILE: serializer.dfy ===
/** The public operations `Serialize`, `Deserialize` and `DeepCopy` put
    together, the round-trip theorem that ties them, and the scenario the
    repository's own tests check. */
module Serializer {
  import opened Wrappers
  import opened Arena
  import opened Wire
  import opened Linearizer
  import opened Bytes
  import opened Payload
  import opened Framing
  import opened Reconstructor
  import opened DeepCopying

  /** Size limits under which every record of the list fits the payload
      codec: fewer than 2^24 nodes, every payload shorter than 2^26
      characters. */
  ghost predicate Fits(h: Heap, chain: seq<nat>)
  {
    && |chain| < 0x100_0000
    && (forall k {:trigger h[chain[k]]} :: 0 <= k < |chain| ==> chain[k] < |h| && OptLength(h[chain[k]].data) < 0x400_0000)
  }

  /** Under `Fits`, each linearized record is small enough to encode. */
  lemma LinearizedFit(h: Heap, head: nat, chain: seq<nat>)
    requires ValidList(h, head, chain) && Fits(h, chain)
    ensures forall k :: 0 <= k < |chain| ==> RecordFits(Linearize(h, head, chain)[k])
  {
    var recs := Linearize(h, head, chain);
    forall k | 0 <= k < |chain|
      ensures RecordFits(recs[k])
    {
      assert recs[k].data == h[chain[k]].data;
    }
  }

  /** `Serialize`: linearize the list, then write each record as a
      length-prefixed payload. */
  function Serialize(h: Heap, head: nat, ghost chain: seq<nat>): (bs: seq<byte>)
    requires ValidList(h, head, chain) && Fits(h, chain)
    ensures GetFromStream(bs) == Success(Linearize(h, head, chain))
  {
    var recs := Linearize(h, head, chain);
    LinearizedFit(h, head, chain);
    GetFromStreamRoundTrip(recs);
    Frame(EncodeAll(recs))
  }

  /** `Deserialize`: read the records from the start of the stream and
      rebuild the list; a malformed stream is an error. */
  function Deserialize(bs: seq<byte>): (r: Result<Rebuilt, StreamError>)
    ensures r.Success? <==> GetFromStream(bs).Success?
    ensures r.Success? ==> r.value.head < |r.value.heap|
    ensures |bs| == 0 ==> r.Success? && r.value.heap[r.value.head] == Blank
    ensures r.Failure? ==> r.error == GetFromStream(bs).error
    ensures r.Success? && DistinctIds(GetFromStream(bs).value) ==>
      var recs := GetFromStream(bs).value;
      && (forall k :: 0 <= k < |recs| ==> recs[k].id in r.value.nodeOf)
      && Builds(recs, r.value.heap, Image(r.value.nodeOf, Ids(recs)))
      && (|recs| > 0 ==> Image(r.value.nodeOf, Ids(recs))[0] == r.value.head)
  {
    match GetFromStream(bs)
    case Failure(e) => Failure(e)
    case Success(recs) => Success(Reconstruct(recs))
  }

  /** One `random` link survives encoding and rebuilding: the source
      link targets chain position `j` exactly when the rebuilt one targets
      result position `j`. */
  lemma EncodesBuildsRandom(h: Heap, chain: seq<nat>, recs: seq<Record>, heap2: Heap, nodes: seq<nat>, k: nat, j: nat)
    requires Encodes(h, chain, recs) && Resolved(recs) && Builds(recs, heap2, nodes)
    requires k < |chain| && j < |chain|
    ensures h[chain[k]].random == Some(chain[j]) <==> heap2[nodes[k]].random == Some(nodes[j])
  {
    if heap2[nodes[k]].random == Some(nodes[j]) {
      assert Defines(recs, recs[k].randomId.value);
      var i :| 0 <= i < |recs| && recs[i].id == recs[k].randomId.value;
      assert heap2[nodes[k]].random == Some(nodes[i]);
      assert i == j;
    }
  }

  /** The `random` link of position `k` survives encoding and rebuilding. */
  lemma EncodesBuildsSameRandom(h: Heap, chain: seq<nat>, recs: seq<Record>, heap2: Heap, nodes: seq<nat>, k: nat)
    requires Encodes(h, chain, recs) && Resolved(recs) && Builds(recs, heap2, nodes)
    requires k < |chain|
    ensures SameRandom(h, chain, heap2, nodes, k)
  {
    forall j | 0 <= j < |chain|
      ensures h[chain[k]].random == Some(chain[j]) <==> heap2[nodes[k]].random == Some(nodes[j])
    {
      EncodesBuildsRandom(h, chain, recs, heap2, nodes, k, j);
    }
  }

  /** A faithful encoding of a valid list, rebuilt as `Builds` describes,
      is isomorphic to the list. */
  lemma EncodesBuildsIsomorphic(h: Heap, chain: seq<nat>, recs: seq<Record>, heap2: Heap, nodes: seq<nat>)
    requires Encodes(h, chain, recs) && Resolved(recs)
    requires Builds(recs, heap2, nodes)
    ensures Isomorphic(h, chain, heap2, nodes)
  {
    assert |nodes| == |chain| && Shape(heap2, nodes);
    forall k | 0 <= k < |chain|
      ensures heap2[nodes[k]].data == h[chain[k]].data
    {
      assert heap2[nodes[k]].data == recs[k].data;
    }
    forall k | 0 <= k < |chain|
      ensures SameRandom(h, chain, heap2, nodes, k)
    {
      EncodesBuildsSameRandom(h, chain, recs, heap2, nodes, k);
    }
  }

  /** An isomorphic result chain witnesses equivalence from its first node. */
  lemma IsomorphicEquivalent(h: Heap, chain: seq<nat>, h2: Heap, nodes: seq<nat>)
    requires Isomorphic(h, chain, h2, nodes) && |nodes| >= 1
    ensures Equivalent(h, chain, h2, nodes[0])
  {
  }

  /** Rebuilding a faithful encoding of a valid list gives a list
      equivalent to it. */
  lemma ReconstructEncoded(h: Heap, chain: seq<nat>, recs: seq<Record>)
    requires Encodes(h, chain, recs) && Resolved(recs) && |recs| > 0
    ensures Equivalent(h, chain, Reconstruct(recs).heap, Reconstruct(recs).head)
  {
    assert DistinctIds(recs);
    var r := Reconstruct(recs);
    var nodes := Image(r.nodeOf, Ids(recs));
    assert Builds(recs, r.heap, nodes);
    EncodesBuildsIsomorphic(h, chain, recs, r.heap, nodes);
    IsomorphicEquivalent(h, chain, r.heap, nodes);
  }

  /** Round trip: deserializing what `Serialize` wrote succeeds and yields a
      list equal to the original up to a bijection of nodes — same length,
      same payloads, `Next`/`Previous` rebuilt in order, same `Random`
      pattern. */
  lemma SerializeRoundTrip(h: Heap, head: nat, chain: seq<nat>)
    requires ValidList(h, head, chain) && Fits(h, chain)
    ensures Deserialize(Serialize(h, head, chain)).Success?
    ensures Equivalent(h, chain, Deserialize(Serialize(h, head, chain)).value.heap,
                       Deserialize(Serialize(h, head, chain)).value.head)
  {
    var recs := Linearize(h, head, chain);
    assert Deserialize(Serialize(h, head, chain)) == Success(Reconstruct(recs));
    EncodesResolved(h, head, chain, recs);
    ReconstructEncoded(h, chain, recs);
  }

  /** `DeepCopy` yields a list equivalent to its source. */
  lemma DeepCopyEquivalent(h: Heap, head: nat, chain: seq<nat>)
    requires ValidList(h, head, chain)
    ensures Equivalent(h, chain, DeepCopy(h, head, chain).heap, DeepCopy(h, head, chain).head)
  {
    var r := DeepCopy(h, head, chain);
    assert Image(r.copyOf, chain)[0] == r.head;
  }

  /** Two results isomorphic to the same source are isomorphic to each
      other. */
  lemma IsomorphicCompose(h: Heap, chain: seq<nat>, h2: Heap, chain2: seq<nat>, h3: Heap, chain3: seq<nat>)
    requires Isomorphic(h, chain, h2, chain2) && Isomorphic(h, chain, h3, chain3)
    ensures Isomorphic(h2, chain2, h3, chain3)
  {
    forall k | 0 <= k < |chain2|
      ensures SameRandom(h2, chain2, h3, chain3, k)
    {
      assert SameRandom(h, chain, h2, chain2, k) && SameRandom(h, chain, h3, chain3, k);
    }
  }

  /** `DeepCopy` and a serialization round trip produce the same list up to
      a bijection of nodes. */
  lemma DeepCopyMatchesRoundTrip(h: Heap, head: nat, chain: seq<nat>)
    requires ValidList(h, head, chain) && Fits(h, chain)
    ensures Deserialize(Serialize(h, head, chain)).Success?
    ensures var c := DeepCopy(h, head, chain);
            var d := Deserialize(Serialize(h, head, chain)).value;
            exists c1, c2 :: |c1| >= 1 && c1[0] == c.head && |c2| >= 1 && c2[0] == d.head && Isomorphic(c.heap, c1, d.heap, c2)
  {
    SerializeRoundTrip(h, head, chain);
    var c := DeepCopy(h, head, chain);
    var d := Deserialize(Serialize(h, head, chain)).value;
    var c1 := Image(c.copyOf, chain);
    var c2 :| |c2| >= 1 && c2[0] == d.head && Isomorphic(h, chain, d.heap, c2);
    IsomorphicCompose(h, chain, c.heap, c1, d.heap, c2);
  }

  // The four-node list of the repository's tests: first -> second ->
  // third -> fourth, with first.Random = third, second.Random = first,
  // third.Random = first and fourth.Random = null.

  function TestHeap(): Heap
  {
    [ Node(Some("first"), Some(1), None, Some(2)),
      Node(Some("second"), Some(2), Some(0), Some(0)),
      Node(Some("third"), Some(3), Some(1), Some(0)),
      Node(Some("fourth"), None, Some(2), None) ]
  }

  function TestChain(): seq<nat>
  {
    [0, 1, 2, 3]
  }

  /** The assertions of the tests on a result list headed by `head`. */
  predicate TestShape(heap: Heap, a: nat)
  {
    a < |heap| && heap[a].next.Some? && heap[a].next.value < |heap| &&
    (var b := heap[a].next.value;
     heap[b].next.Some? && heap[b].next.value < |heap| &&
     (var c := heap[b].next.value;
      heap[c].next.Some? && heap[c].next.value < |heap| &&
      (var d := heap[c].next.value;
       && heap[d].next.None?
       && heap[a].previous.None? && heap[b].previous == Some(a)
       && heap[c].previous == Some(b) && heap[d].previous == Some(c)
       && heap[a].data == Some("first") && heap[b].data == Some("second")
       && heap[c].data == Some("third") && heap[d].data == Some("fourth")
       && heap[a].random == Some(c) && heap[b].random == Some(a)
       && heap[c].random == Some(a) && heap[d].random.None?)))
  }

  /** Any list isomorphic to the test list passes the tests' assertions. */
  lemma TestShapeFromIsomorphic(heap: Heap, nodes: seq<nat>)
    requires Isomorphic(TestHeap(), TestChain(), heap, nodes)
    ensures TestShape(heap, nodes[0])
  {
    var h, chain := TestHeap(), TestChain();
    assert SameRandom(h, chain, heap, nodes, 0) && h[chain[0]].random == Some(chain[2]);
    assert SameRandom(h, chain, heap, nodes, 1) && h[chain[1]].random == Some(chain[0]);
    assert SameRandom(h, chain, heap, nodes, 2) && h[chain[2]].random == Some(chain[0]);
    assert SameRandom(h, chain, heap, nodes, 3);
    assert heap[nodes[0]].next == Some(nodes[1]);
    assert heap[nodes[1]].next == Some(nodes[2]);
    assert heap[nodes[2]].next == Some(nodes[3]);
    assert heap[nodes[3]].next == None;
    assert Shape(heap, nodes) && |nodes| == 4;
    assert heap[nodes[0]].previous == None;
    assert heap[nodes[1]].previous == Some(nodes[0]);
    assert heap[nodes[2]].previous == Some(nodes[1]);
    assert heap[nodes[3]].previous == Some(nodes[2]);
    assert forall k :: 0 <= k < 4 ==> heap[nodes[k]].data == h[chain[k]].data;
  }

  lemma TestListValid()
    ensures ValidList(TestHeap(), 0, TestChain()) && Fits(TestHeap(), TestChain())
  {
    TestListIsChain();
    TestListFits();
    var h, chain := TestHeap(), TestChain();
    assert h[0].random == Some(chain[2]) && h[1].random == Some(chain[0]) && h[2].random == Some(chain[0]);
    forall k | 0 <= k < |chain| && h[chain[k]].random.Some?
      ensures h[chain[k]].random.value in chain
    {
      assert k < 3;
    }
  }

  lemma TestListIsChain()
    ensures IsChain(TestHeap(), TestChain())
  {
    var h, chain := TestHeap(), TestChain();
    assert Distinct(chain);
    assert h[0].next == Some(1) && h[1].next == Some(2) && h[2].next == Some(3) && h[3].next == None;
    forall k | 0 <= k < |chain|
      ensures h[chain[k]].next == At(chain, k + 1)
    {
      assert chain[k] == k;
    }
  }

  lemma TestListFits()
    ensures Fits(TestHeap(), TestChain())
  {
    var h, chain := TestHeap(), TestChain();
    forall k | 0 <= k < |chain|
      ensures OptLength(h[chain[k]].data) < 0x400_0000
    {
      assert chain[k] == k && |h[k].data.value| <= 6;
    }
  }

  /** The deep-copy test: the copy of the four-node list has its shape. */
  lemma DeepCopyScenario()
    ensures ValidList(TestHeap(), 0, TestChain())
    ensures var r := DeepCopy(TestHeap(), 0, TestChain()); TestShape(r.heap, r.head)
  {
    TestListValid();
    var r := DeepCopy(TestHeap(), 0, TestChain());
    TestShapeFromIsomorphic(r.heap, Image(r.copyOf, TestChain()));
  }

  /** The serialization test: writing the four-node list and reading it
      back gives a list of its shape. */
  lemma RoundTripScenario()
    ensures ValidList(TestHeap(), 0, TestChain()) && Fits(TestHeap(), TestChain())
    ensures Deserialize(Serialize(TestHeap(), 0, TestChain())).Success?
    ensures var r := Deserialize(Serialize(TestHeap(), 0, TestChain())).value; TestShape(r.heap, r.head)
  {
    TestListValid();
    SerializeRoundTrip(TestHeap(), 0, TestChain());
    var r := Deserialize(Serialize(TestHeap(), 0, TestChain())).value;
    var nodes :| |nodes| >= 1 && nodes[0] == r.head && Isomorphic(TestHeap(), TestChain(), r.heap, nodes);
    TestShapeFromIsomorphic(r.heap, nodes);
  }

  // A single node whose `Random` is itself: the boundary case of a
  // self-reference, where the record's `RandomId` is its own `Id`.

  function SelfHeap(): Heap
  {
    [Node(Some("self"), None, None, Some(0))]
  }

  lemma SelfListValid()
    ensures ValidList(SelfHeap(), 0, [0]) && Fits(SelfHeap(), [0])
  {
    assert Distinct([0]);
    assert SelfHeap()[0].next == At([0], 1);
  }

  /** A list isomorphic to the one-node self-loop is itself a one-node
      self-loop. */
  lemma SelfLoopFromIsomorphic(heap: Heap, nodes: seq<nat>)
    requires Isomorphic(SelfHeap(), [0], heap, nodes)
    ensures nodes[0] < |heap|
    ensures heap[nodes[0]].random == Some(nodes[0]) && heap[nodes[0]].next.None?
    ensures heap[nodes[0]].data == Some("self")
  {
    assert SameRandom(SelfHeap(), [0], heap, nodes, 0);
    assert SelfHeap()[0].random == Some([0][0]);
    assert heap[nodes[0]].next == At(nodes, 1);
  }

  /** The copy of a self-loop, and its serialization round trip, are
      self-loops. */
  lemma SelfLoopScenario()
    ensures ValidList(SelfHeap(), 0, [0]) && Fits(SelfHeap(), [0])
    ensures var c := DeepCopy(SelfHeap(), 0, [0]); c.heap[c.head].random == Some(c.head)
    ensures Deserialize(Serialize(SelfHeap(), 0, [0])).Success?
    ensures var d := Deserialize(Serialize(SelfHeap(), 0, [0])).value; d.heap[d.head].random == Some(d.head)
  {
    SelfListValid();
    var c := DeepCopy(SelfHeap(), 0, [0]);
    SelfLoopFromIsomorphic(c.heap, Image(c.copyOf, [0]));
    SerializeRoundTrip(SelfHeap(), 0, [0]);
    var d := Deserialize(Serialize(SelfHeap(), 0, [0])).value;
    var nodes :| |nodes| >= 1 && nodes[0] == d.head && Isomorphic(SelfHeap(), [0], d.heap, nodes);
    SelfLoopFromIsomorphic(d.heap, nodes);
  }
}

=== FILE: tokens.dfy ===
/** Identity tokens. The source draws each token from `Guid.NewGuid()`; the
    model draws the decimal rendering of a counter instead, so that "a fresh
    token differs from every token handed out before" is provable rather than
    probabilistic. */
module Tokens {

  function DigitChar(d: nat): char
    requires d < 10
  {
    ['0', '1', '2', '3', '4', '5', '6', '7', '8', '9'][d]
  }

  function DigitValue(c: char): nat
  {
    if '0' <= c <= '9' then (c as int) - ('0' as int) else 0
  }

  /** The token for counter value `n`: its decimal digits. */
  function Token(n: nat): (t: string)
    ensures |t| >= 1
  {
    if n < 10 then [DigitChar(n)] else Token(n / 10) + [DigitChar(n % 10)]
  }

  /** Reads a decimal token back to its counter value. */
  function ParseToken(t: string): nat
  {
    if |t| == 0 then 0 else ParseToken(t[..|t| - 1]) * 10 + DigitValue(t[|t| - 1])
  }

  /** Parsing a token gives back the counter it was made from. */
  lemma {:induction false} ParseTokenInverts(n: nat)
    ensures ParseToken(Token(n)) == n
  {
    if n < 10 {
      assert Token(n)[..0] == [];
    } else {
      var t := Token(n);
      var q, d := n / 10, n % 10;
      assert t[..|t| - 1] == Token(q) && t[|t| - 1] == DigitChar(d);
      ParseTokenInverts(q);
      assert DigitValue(DigitChar(d)) == d;
      assert ParseToken(t) == q * 10 + d;
    }
  }

  /** A token is no longer than its counter value plus one. */
  lemma {:induction false} TokenLength(n: nat)
    ensures |Token(n)| <= n + 1
  {
    if n >= 10 {
      TokenLength(n / 10);
    }
  }

  /** Distinct counters give distinct tokens: the uniqueness a fresh Guid
      provides. A corollary of `ParseTokenInverts`, which the linearizer
      uses directly because it also bounds every earlier token's counter. */
  lemma TokenInjective(a: nat, b: nat)
    ensures Token(a) == Token(b) ==> a == b
  {
    ParseTokenInverts(a);
    ParseTokenInverts(b);
  }
}

=== FILE: wire.dfy ===
/** The wire record `SerializableModels.ListNode`: an immutable value with a
    mandatory `Id` and optional `RandomId` and `Data`. It has no `Next` or
    `Previous` field: chain order is the order of records in the stream. */
module Wire {
  import opened Wrappers

  /** The constructor stores its three arguments unchanged and the
      properties are get-only, which a Dafny datatype value is by
      construction. */
  datatype Record = Record(id: string, randomId: Option<string>, data: Option<string>)

  /** No two records share an `Id`. */
  ghost predicate DistinctIds(recs: seq<Record>)
  {
    forall i, j :: 0 <= i < |recs| && 0 <= j < |recs| && i != j ==> recs[i].id != recs[j].id
  }

  /** Some record of `recs` is defined with `Id == id`. */
  ghost predicate Defines(recs: seq<Record>, id: string)
  {
    exists j :: 0 <= j < |recs| && recs[j].id == id
  }

  /** Every `RandomId` names a record of the same sequence. */
  ghost predicate Resolved(recs: seq<Record>)
  {
    forall k :: 0 <= k < |recs| && recs[k].randomId.Some? ==> Defines(recs, recs[k].randomId.value)
  }

  /** The `Id` of each record, in stream order. */
  function Ids(recs: seq<Record>): (ids: seq<string>)
    ensures |ids| == |recs|
    ensures forall k :: 0 <= k < |recs| ==> ids[k] == recs[k].id
  {
    seq(|recs|, k requires 0 <= k < |recs| => recs[k].id)
  }
}

=== FILE: wrappers.dfy ===
/** Option and Result, the value-level stand-ins for C# `null` and for
    exceptions that abort a call. */
module Wrappers {

  /** `None` plays the role of a null reference or a null string. */
  datatype Option<+T> = None | Some(value: T)

  /** `Failure` plays the role of an exception thrown out of the call. */
  datatype Result<+T, +E> = Success(value: T) | Failure(error: E)
}
